=== FILE: README.md ===
# numba event bus, modelled in Dafny

This project models `numba/core/event.py`, numba's in-process instrumentation
bus. Code marks phases of work as events of a *kind* with a START and an END.
Listeners registered for that kind observe the events synchronously:

- a `TimingListener` measures elapsed time, and it is reentrant;
- a `RecordingListener` keeps a history;
- a user-defined listener runs custom code.

The model is functional. The module's globals, the listener objects and a clock
form one immutable `World`. Every operation returns the new world. When the
Python operation would raise, it also returns the exception, because side
effects made before a raise survive it.

- `Kinds` (kinds.dfy): the reserved-prefix guard and the built-in kinds.
- `Events` (events.dfy): the event record, its constructor and its predicates.
- `Listeners` (listeners.dfy): listener states and the callbacks `on_start`,
  `on_end` and `notify`. It also holds the timer's `duration`.
- `Registrations` (registry.dfy): the kind-to-listener-list registry,
  `register` and `unregister`.
- `Dispatch` (dispatch.dfy): the bus state and `broadcast`.
- `Emission` (emission.dfy): `start_event`, `end_event` and `mark_event`. The
  code inside a scope is data: a `Body` of actions (elapse, emit, nested
  `mark_event`) that ends normally or raises.
- `Scopes` (scopes.dfy): `install_timer` and `install_recorder`.
- `Traces` (traces.dfy): a reference semantics that reads only the code. On a
  bus whose listeners never raise, running a body broadcasts exactly its
  `Trace` and lets out exactly its `Outcome`.
- `TimerProofs` and `RecorderProofs`: what the built-in listeners observe.

The world also keeps `history`, the sequence of every event handed to
`broadcast`. The source has no such list. The model adds it so that "END is
broadcast exactly once" can be stated.

One behaviour of `mark_event` is easy to misread. It looks as if the END is
never reached when a listener raises on START. But `mark_event` pushes its exit
hook (numba/core/event.py:328-330) before it calls `start_event` (:332). So END
is broadcast on that path too, and it carries the exception raised by START.
`MarkEventStartRaises` states this.

`Event.is_failed` is modelled as written: it is true when the exception-type
slot is empty. In effect it reports a normal exit as failed.
`Events.IsFailedPolarity` pins that polarity.

## Model

| member | source | states |
|---|---|---|
| Errors.TypeName | numba/core/event.py:37-38 | the Python class each failure surfaces as: an invalid kind (:38) and a missing registration (`list.remove`, :157) are `ValueError`, a duration read before any measurement is `AttributeError` (:226), an END that closes the outermost scope of a timer that never saw a START is `TypeError` (`self._ts` is `None` at :220), and a listener's own exception keeps its class |
| Kinds.GuardKind | numba/core/event.py:23-39 | the guard succeeds exactly for kinds without the "numba:" prefix or in the built-in set, returns the kind unchanged, and otherwise raises naming the kind |
| Kinds.GuardRejectsReservedSpellings | numba/core/event.py:37-39 | the guard rejects exactly the strings spelled "numba:" plus a suffix that are not built in (prefix test replaced by an existential reference definition) |
| Kinds.GuardIdempotent | numba/core/event.py:37-39 | guarding an accepted kind again gives the same result |
| Kinds.GuardExamples | numba/core/event.py:17-20 | both built-in kinds pass, an unknown "numba:" kind is rejected, "numba" and kinds merely containing "numba:" pass |
| Errors.DetailsOf | numba/core/event.py:328-330 | the exit triple is `(None, None, None)` on a normal exit and carries the exception's type, value and a traceback otherwise |
| Events.NewEvent | numba/core/event.py:45-59 | construction succeeds exactly when the guard does, stores kind, status, data and triple as given, and otherwise raises the guard's error |
| Events.StartEndExclusive | numba/core/event.py:92-109 | exactly one of `is_start` and `is_end` holds |
| Events.IsFailedPolarity | numba/core/event.py:112-122 | on an END built from an exit triple, `is_failed` is true exactly when no exception was propagating (the literal polarity) |
| Listeners.NewTimer | numba/core/event.py:208-210 | a new timer is well formed and reading its duration raises the attribute error, because `_duration` is only assigned by an END |
| Listeners.FreshTimerFirstStart | numba/core/event.py:208-215 | the first START a new timer sees stamps the current time and opens depth one, still without a duration |
| Listeners.NewRecorder | numba/core/event.py:235-236 | a new recorder has an empty buffer |
| Listeners.FreshRecorderFirstEvent | numba/core/event.py:235-242 | the first event a new recorder is told about, START or END, becomes its only entry, with the current time |
| Listeners.OnStart | numba/core/event.py:205-242 | a timer records the time only if none is recorded yet and increments depth, keeping the duration; a recorder appends one `(time, event)` entry; a custom listener raises exactly when it is set to, and the exception is its own, unchanged |
| Listeners.OnEnd | numba/core/event.py:205-242 | a timer decrements depth and changes the duration only when depth becomes zero, then to now minus the first START time; otherwise it changes nothing else; a recorder appends one entry; a custom listener raises exactly when it is set to, and the exception is its own, unchanged |
| Listeners.Notify | numba/core/event.py:194-202 | START reaches `on_start` only and END reaches `on_end` only, for every listener: a timer's depth goes up by one on START and down by one on END, a recorder appends the event, and a custom listener raises exactly when the callback the status selects is set to raise, letting out that callback's own exception (and otherwise counts that callback); a listener keeps its kind; timer well-formedness is preserved and a well-formed timer never raises |
| Listeners.Duration | numba/core/event.py:222-226 | reading the duration succeeds exactly when it has been set and otherwise raises the attribute error |
| Listeners.RecorderAppendsOne | numba/core/event.py:235-242 | each notification appends exactly one entry holding the time and event, leaving earlier entries unchanged |
| Registrations.Lookup | numba/core/event.py:130 | reading `_registered` as a `defaultdict(list)`: a kind never registered reads as the empty list rather than failing, and a registered kind reads as its stored list (the reads at :156 and :167) |
| Registrations.FirstIndex | numba/core/event.py:157 | the first position holding the listener |
| Registrations.RemoveFirst | numba/core/event.py:157 | `list.remove` drops exactly the entry at the first index of the listener and keeps the rest in order |
| Registrations.RemoveFirstCount | numba/core/event.py:157 | removal lowers the listener's multiplicity by one and leaves every other listener's multiplicity unchanged |
| Registrations.RemoveFirstAppended | numba/core/event.py:157 | removing a listener that was appended to a list not containing it restores the list |
| Registrations.Register | numba/core/event.py:133-143 | register succeeds exactly for valid kinds, appends the listener to the end of the kind's list even when already present, and leaves every other kind's list unchanged |
| Registrations.Unregister | numba/core/event.py:146-157 | unregister succeeds exactly for a valid kind whose list holds the listener, removes its first entry only, leaves other kinds unchanged, and raises otherwise |
| Registrations.UnregisterUndoesRegister | numba/core/event.py:133-157 | unregistering a freshly registered listener succeeds and gives back the same list for every kind |
| Registrations.UnregisterRemovesOne | numba/core/event.py:146-157 | unregister removes one installation; a listener installed once is gone afterwards |
| Dispatch.Deliver | numba/core/event.py:167-168 | walking the list changes only listeners in it, keeps each listener's kind and timer well-formedness, raises only a listener's error (a user exception that escapes is the fault of a custom listener in the list whose callback for the event's status raises), and never raises when all listeners are well-formed built-ins |
| Dispatch.Broadcast | numba/core/event.py:160-168 | broadcast changes neither registry nor clock; with nobody registered for the kind it is a no-op apart from the history |
| Dispatch.DeliverSplit | numba/core/event.py:167-168 | delivery is in list order and stops at the first raising listener: walking `a + b` is walking `a`, then `b` only if nobody in `a` raised |
| Dispatch.DeliverCountsCustom | numba/core/event.py:167-168 | a completed delivery notifies a listener once per occurrence in the list, duplicates included |
| Dispatch.BroadcastToSole | numba/core/event.py:167-168 | with one listener registered for the kind, a broadcast is that listener's `notify` |
| Dispatch.RegisteredListenerNotifiedOnce | numba/core/event.py:133-168 | after registering a custom listener for a kind it was not already installed for, a completed broadcast of that kind notifies it exactly once, through the callback matching the status |
| Dispatch.UnregisteredListenerNotNotified | numba/core/event.py:146-168 | after unregistering a listener's only installation, broadcasts of that kind leave it untouched |
| Emission.StartEvent | numba/core/event.py:285-296 | start_event raises, changing nothing, for an invalid kind, and otherwise is exactly `broadcast` of one START with the given data and no triple: the same listener updates, the same exception |
| Emission.EndEvent | numba/core/event.py:299-312 | end_event raises, changing nothing, for an invalid kind, and otherwise is exactly `broadcast` of one END carrying the given triple: the same listener updates, the same exception |
| Emission.Entered | numba/core/event.py:327-333 | START is broadcast first, and a raising start_event skips the body |
| Emission.MarkEvent | numba/core/event.py:315-333 | invalid kind: raises the guard error and nothing is broadcast; valid kind: exactly one END comes last, after everything the entered scope broadcast, and it carries the exit triple of whatever is propagating; the bus it leaves is exactly the one that END's `end_event` (hence `broadcast`) leaves, so the END reaches the kind's listeners; if the scope was propagating an exception, an exception leaves, which is that one unless the END broadcast itself raises, in which case the END's exception replaces it |
| Emission.ExitHook | numba/core/event.py:328-330 | the pushed exit callback runs `end_event` with the triple of what is propagating and leaves that call's bus; an exception stays propagating, the END's own exception replacing it if `end_event` raises |
| Emission.MarkEventBrackets | numba/core/event.py:327-333 | a valid scope's first broadcast is its START; with nobody registered for the kind, the exception leaving the scope is the body's own |
| Emission.MarkEventStartRaises | numba/core/event.py:327-332 | when a listener raises on START, the exit hook is already pushed: the scope broadcasts START then END carrying that exception, and the body does not run; an exception always leaves, and it is START's unless the END broadcast raises too |
| Scopes.Allocate | numba/core/event.py:258 | a new listener gets an id no existing listener or registration uses |
| Scopes.Armed | numba/core/event.py:258-259 | the scope's listener is appended to the kind's list and nothing else is registered; an invalid kind raises |
| Scopes.Disarm | numba/core/event.py:262-263 | the `finally` clause unregisters the scope's listener whatever the body did: every kind's list is as before the scope, the listener is in none, and the listeners, history and clock the body left are kept |
| Scopes.InstallTimer | numba/core/event.py:245-264 | the timer is unregistered on every path, leaving every kind's list as before; if the body raises, that exception leaves and the callback is skipped; after a normal exit the callback gets the final duration, or, when no duration was measured, reading it raises the attribute error and the callback is skipped |
| Scopes.InstallRecorder | numba/core/event.py:267-282 | the recorder is unregistered on every path, leaving every kind's list as before; the scope's world and exception are exactly those of running the body with the recorder registered; an invalid kind raises before the body runs |
| Traces.QuietBroadcast | numba/core/event.py:160-168 | on a bus of well-formed built-in listeners a broadcast never raises and the bus stays so |
| Traces.QuietBody | numba/core/event.py:285-333 | on such a bus, running code broadcasts exactly its syntactic trace and lets out exactly its syntactic outcome |
| Traces.QuietAction | numba/core/event.py:285-333 | the same for a single action |
| Traces.QuietForBroadcast | numba/core/event.py:160-168 | a broadcast of a kind whose listeners are all well-formed built-ins never raises and keeps them so, whatever listens to other kinds |
| Traces.QuietForBody | numba/core/event.py:285-333 | code that emits only such a kind, nested scopes included, broadcasts exactly its syntactic trace and lets out exactly its syntactic outcome, whatever listens to other kinds |
| Traces.QuietForAction | numba/core/event.py:285-333 | the same for a single action |
| Traces.QuietForMark | numba/core/event.py:315-333 | the same for a mark_event scope of that kind |
| Traces.QuietMark | numba/core/event.py:315-333 | on such a bus mark_event broadcasts START, the body's trace, then one END with the body's exit triple, and lets the body's exception out unchanged |
| TimerProofs.TimerInsideBody | numba/core/event.py:212-220 | with the timer as the only listener of its kind and code that only elapses time and nests scopes of that kind, all exiting normally: inside an open scope such code leaves the timer unchanged, raises nothing and takes the code's time |
| TimerProofs.TimerInsideMark | numba/core/event.py:212-220 | with the timer as the only listener of its kind, a nested scope of that kind whose code only elapses time and nests such scopes raises the depth and lowers it again without reaching zero |
| TimerProofs.TimerStarts | numba/core/event.py:212-215 | with the timer as only listener, start_event is the timer's `on_start` and never raises |
| TimerProofs.TimerEnds | numba/core/event.py:217-220 | with a well-formed timer as only listener, end_event is the timer's `on_end` and never raises |
| TimerProofs.TimerOpensScope | numba/core/event.py:212-215 | with the timer as the only listener of its kind and scope code that only elapses time and nests scopes of that kind: entering an outermost scope stamps the timer only if it has no timestamp yet, and the code leaves it open at depth one |
| TimerProofs.TimerCloses | numba/core/event.py:217-220 | the END that brings depth from one to zero sets the duration to now minus the timer's timestamp |
| TimerProofs.TimerOuterMark | numba/core/event.py:208-220 | with the timer as the only listener of its kind and scope code that only elapses time and nests scopes of that kind: an outermost scope sets the duration to the time since the timer's first START ever, which is the scope's own START for a fresh timer |
| TimerProofs.TimerFreshMark | numba/core/event.py:208-220 | with a fresh timer as the only listener of its kind and scope code that only elapses time and nests scopes of that kind: the timer measures exactly the time that scope took |
| TimerProofs.InstallTimerReportsScope | numba/core/event.py:245-264 | install_timer around one scope reports the time the scope took, however deeply it nests further scopes of that kind |
| TimerProofs.NestedScopesMeasureOnce | numba/core/event.py:205-226 | with no other listener registered for the kind, install_timer around two nested scopes with work a, b, c yields one duration a + b + c |
| TimerProofs.BroadcastPasses | numba/core/event.py:167-168 | a broadcast of a kind the listener is not installed for leaves it untouched |
| TimerProofs.SilentBodyPasses | numba/core/event.py:160-168 | running any code that never emits the listener's kind, even inside nested scopes of other kinds, leaves a listener installed only for that kind untouched, whatever the code raises |
| TimerProofs.SilentActionPasses | numba/core/event.py:160-168 | the same for one action |
| TimerProofs.SilentMarkPasses | numba/core/event.py:315-333 | the same for a scope of another kind, on every exit path including a raising START |
| TimerProofs.InstallTimerUnmeasured | numba/core/event.py:222-264 | for any code that never emits the timer's kind, the callback is skipped: after a normal exit reading the duration raises the attribute error, otherwise the code's own exception leaves |
| TimerProofs.InstallTimerBodyRaises | numba/core/event.py:258-264 | for any code that raises inside the scope, that exception leaves, the callback is skipped and the registry is restored |
| RecorderProofs.RecorderSeesBroadcast | numba/core/event.py:235-242 | a sole recorder appends a broadcast event exactly when it has the recorder's kind |
| RecorderProofs.RecorderSeesStart | numba/core/event.py:285-296 | the same for start_event |
| RecorderProofs.RecorderSeesEnd | numba/core/event.py:299-312 | the same for end_event |
| RecorderProofs.RecorderMirrorsBody | numba/core/event.py:229-242 | with the recorder as the only listener of its kind and installed for no other kind: on any run of any code, raising or not, the recorder gains exactly the events of its kind broadcast during the run, in order |
| RecorderProofs.RecorderMirrorsAction | numba/core/event.py:229-242 | the same for one action, under the same sole-recorder hypothesis |
| RecorderProofs.RecorderMirrorsMark | numba/core/event.py:229-242 | the same for one mark_event scope, under the same sole-recorder hypothesis |
| RecorderProofs.InstallRecorderMirrors | numba/core/event.py:267-282 | with no other listener registered for the kind, on every exit path the buffer holds exactly the events of its kind broadcast inside the scope |
| RecorderProofs.RepeatTrace | numba/core/event.py:315-333 | n empty scopes raise nothing and broadcast 2n events alternating START and END |
| RecorderProofs.RepeatedMarksAlternate | numba/core/event.py:229-242 | a recorder that is the only listener of its kind, observing n scopes of that kind, sees them all complete and gains 2n entries alternating START and END after its earlier entries, whatever listens to other kinds |

## Left out

- Clocks. The model has one integer clock `now` in place of `timeit.default_timer` and `time.time()`. Both callbacks read it, listener calls take no time, and only the body's `Elapse` actions advance it. There is no floating-point arithmetic.
- `Event.__str__`: presentation only, and it relies on Python's `__qualname__`.
- The `isinstance` asserts in register and unregister, and the `abc.ABC` machinery. The listener datatype stands in for them.
- The `AssertionError("unreachable")` branch of `notify`. `Event.__init__` stores whatever status it is given, but the events the module builds carry START or END, so the branch cannot be taken by them; the model's status type has only those two values.
- The mechanics of `contextmanager`, `ExitStack` and generators. Only the order they produce is modelled. When the exit hook itself raises, its exception replaces the propagating one. Python's exception chaining (`__context__`) is not modelled.
- Threads. The registry has no locking, and concurrent use is not modelled.
- `defaultdict` lookups do not create empty entries here. The empty list that `unregister` leaves behind is kept, so registries are compared per kind through `Lookup`.
- The event payload is a type parameter with no behaviour.
- The `install_timer` callback. It is foreign code, so the model records only the argument it is called with. Its own side effects and exceptions are not modelled.
- Custom listeners either raise a fixed exception or count their calls. Arbitrary user code is not modelled, including code that registers or unregisters during a broadcast.
- Instrumented code can only elapse time, emit events and nest `mark_event` scopes. It cannot register listeners or open installer scopes itself.
- `try`/`except` inside instrumented code. An exception that reaches a block always ends it; code cannot catch an exception raised by an inner scope or a listener and carry on.
- Tracebacks are a placeholder value.
- RecorderProofs.RepeatedMarksAlternate: assumes the recorder is the only listener for its kind. Another listener of that kind could raise during a scope and cut the sequence short.
- RecorderProofs.InstallRecorderMirrors: assumes no other listener is registered for the kind. A listener ahead of the recorder that raises would otherwise stop delivery before the recorder.
- Dispatch.RegisteredListenerNotifiedOnce: assumes a custom listener not already installed for the kind. A listener installed twice is notified twice (`Dispatch.DeliverCountsCustom` counts that case), and a built-in listener has no call counters.
- TimerProofs.TimerInsideBody: assumes the timer is the only listener for its kind and the code only elapses time and nests scopes of that kind, all exiting normally. Another listener ahead of the timer could raise and stop delivery (numba/core/event.py:167-168) before the timer, and a raising body changes the count of START and END events.
- TimerProofs.TimerInsideMark: assumes the same sole timer and nesting-only code as `TimerInsideBody`, for the same reason.
- TimerProofs.TimerOpensScope: assumes the same sole timer and nesting-only code as `TimerInsideBody`, for the same reason.
- TimerProofs.TimerOuterMark: assumes the same sole timer and nesting-only code as `TimerInsideBody`, for the same reason.
- TimerProofs.TimerFreshMark: assumes the same sole timer and nesting-only code as `TimerInsideBody`, for the same reason.
- TimerProofs.NestedScopesMeasureOnce: assumes no other listener is registered for the kind, because a raising listener ahead of the timer would stop delivery before it.
- RecorderProofs.RecorderMirrorsBody: assumes the recorder is the only listener for its kind and is installed for no other kind. A raising listener ahead of it stops delivery at :167-168, so with another listener the buffer can miss an event that was broadcast; a second installation would record events twice.
- RecorderProofs.RecorderMirrorsAction: assumes the same sole recorder as `RecorderMirrorsBody`, for the same reason.
- RecorderProofs.RecorderMirrorsMark: assumes the same sole recorder as `RecorderMirrorsBody`, for the same reason.
- TimerProofs.InstallTimerReportsScope: assumes the timer is the only listener for its kind and the scope's code only works and nests scopes of that kind, all exiting normally.

=== FILE: dispatch.dfy ===
/** The process-wide bus state and `broadcast`. */
module Dispatch {
  import opened Errors
  import opened Events
  import opened Listeners
  import opened Registrations
  import opened Kinds

  type ListenerTable<D> = map<ListenerId, ListenerState<D>>

  /** Everything the module's globals and the listener objects hold, plus the
      clock and the sequence of events handed to `broadcast` so far. */
  datatype World<D> = World(
    registry: Registry,
    listeners: ListenerTable<D>,
    nextId: ListenerId,
    now: int,
    history: seq<Event<D>>)

  /** Every installed id names a live listener and every live listener has an
      id below `nextId`, so `nextId` is a listener nobody has registered. */
  ghost predicate Valid<D>(w: World<D>)
  {
    && (forall kind, id | kind in w.registry && id in w.registry[kind] :: id in w.listeners)
    && (forall id | id in w.listeners :: id < w.nextId)
  }

  /** The bus state after an operation, and the exception it raised (its side effects stay). */
  datatype Step<D> = Step(world: World<D>, raised: Option<Error>)

  /** Which kind of listener a state belongs to; a listener never changes kind. */
  function Variant<D>(s: ListenerState<D>): nat
  {
    match s
    case Timing(_, _, _) => 0
    case Recording(_) => 1
    case Custom(_, _, _, _) => 2
  }

  /** What emitting never changes: the registry, the set of listeners and the
      id counter, nor what kind each listener is; the history only grows and
      the clock does not run back. */
  ghost predicate Evolves<D>(w: World<D>, w': World<D>)
  {
    && w'.registry == w.registry
    && w'.listeners.Keys == w.listeners.Keys
    && w'.nextId == w.nextId
    && w.now <= w'.now
    && w.history <= w'.history
    && (forall id | id in w.listeners :: Variant(w'.listeners[id]) == Variant(w.listeners[id]))
  }

  lemma EvolvesKeepsValid<D>(w: World<D>, w': World<D>)
    requires Valid(w) && Evolves(w, w')
    ensures Valid(w')
  {
  }

  /** The result of walking a listener list. */
  datatype Delivery<D> = Delivery(listeners: ListenerTable<D>, raised: Option<Error>)

  /** The loop of `broadcast`: notify each listener in list order and stop at
      the first one that raises, letting its exception out. */
  function Deliver<D>(ls: ListenerTable<D>, ids: seq<ListenerId>, e: Event<D>, now: int): (r: Delivery<D>)
    requires forall id | id in ids :: id in ls
    ensures r.listeners.Keys == ls.Keys
    ensures forall id | id in ls && id !in ids :: r.listeners[id] == ls[id]
    ensures forall id | id in ls :: Variant(r.listeners[id]) == Variant(ls[id])
    ensures forall id | id in ls :: TimingWellFormed(ls[id]) ==> TimingWellFormed(r.listeners[id])
    ensures r.raised.Some? ==> r.raised.value == NoStartTime || r.raised.value.Raised?
    ensures r.raised.Some? && r.raised.value.Raised? ==>
              exists id | id in ids :: && ls[id].Custom?
                                       && (if e.IsStart() then ls[id].startFault else ls[id].endFault) == Some(r.raised.value.exc)
    ensures (forall id | id in ids :: !ls[id].Custom? && TimingWellFormed(ls[id])) ==> r.raised.None?
    decreases |ids|
  {
    if |ids| == 0 then Delivery(ls, None)
    else
      var n := Notify(ls[ids[0]], e, now);
      var ls' := ls[ids[0] := n.state];
      if n.raised.Some? then Delivery(ls', n.raised)
      else Deliver(ls', ids[1..], e, now)
  }

  /** `broadcast(event)`: deliver to the listeners installed for the event's kind. */
  function Broadcast<D>(w: World<D>, e: Event<D>): (r: Step<D>)
    requires Valid(w)
    ensures Evolves(w, r.world) && r.world.now == w.now
    ensures r.world.history == w.history + [e]
    ensures Lookup(w.registry, e.kind) == [] ==> r == Step(w.(history := w.history + [e]), None)
  {
    var d := Deliver(w.listeners, Lookup(w.registry, e.kind), e, w.now);
    Step(w.(listeners := d.listeners, history := w.history + [e]), d.raised)
  }

  /** Delivery is sequential and aborting: walking `a + b` is walking `a`, then,
      only if nobody in `a` raised, walking `b` from where `a` left off. */
  lemma {:induction false} DeliverSplit<D>(ls: ListenerTable<D>, a: seq<ListenerId>, b: seq<ListenerId>, e: Event<D>, now: int)
    requires forall id | id in a + b :: id in ls
    ensures var da := Deliver(ls, a, e, now);
            Deliver(ls, a + b, e, now) == if da.raised.Some? then da else Deliver(da.listeners, b, e, now)
  {
    if |a| == 0 {
      assert a + b == b;
    } else {
      assert (a + b)[0] == a[0] && (a + b)[1..] == a[1..] + b;
      var n := Notify(ls[a[0]], e, now);
      if n.raised.None? {
        DeliverSplit(ls[a[0] := n.state], a[1..], b, e, now);
      }
    }
  }

  /** A listener is notified once per installation: when delivery completes,
      a custom listener has seen one more START (or END) per occurrence in the list. */
  lemma {:induction false} DeliverCountsCustom<D>(ls: ListenerTable<D>, ids: seq<ListenerId>, e: Event<D>, now: int, id: ListenerId)
    requires forall x | x in ids :: x in ls
    requires id in ls && ls[id].Custom?
    requires Deliver(ls, ids, e, now).raised.None?
    ensures var s := Deliver(ls, ids, e, now).listeners[id];
            && s.Custom?
            && s.starts == ls[id].starts + (if e.IsStart() then Count(ids, id) else 0)
            && s.ends == ls[id].ends + (if e.IsEnd() then Count(ids, id) else 0)
  {
    if |ids| > 0 {
      var n := Notify(ls[ids[0]], e, now);
      DeliverCountsCustom(ls[ids[0] := n.state], ids[1..], e, now, id);
    }
  }

  /** With a single listener installed for the kind, a broadcast is that listener's `notify`. */
  lemma BroadcastToSole<D>(w: World<D>, e: Event<D>, id: ListenerId)
    requires Valid(w) && Lookup(w.registry, e.kind) == [id]
    ensures id in w.listeners
    ensures var n := Notify(w.listeners[id], e, w.now);
            Broadcast(w, e) == Step(w.(listeners := w.listeners[id := n.state], history := w.history + [e]), n.raised)
  {
    assert id in Lookup(w.registry, e.kind);
    var n := Notify(w.listeners[id], e, w.now);
    assert Deliver(w.listeners, [id], e, w.now) == Delivery(w.listeners[id := n.state], n.raised);
  }

  lemma {:induction false} CountAppend(s: seq<ListenerId>, x: ListenerId)
    ensures Count(s + [x], x) == Count(s, x) + 1
  {
    if |s| > 0 {
      assert (s + [x])[1..] == s[1..] + [x];
      CountAppend(s[1..], x);
    }
  }

  /** A custom listener registered for a kind it was not yet installed for is
      notified exactly once by each broadcast of that kind that completes. */
  lemma RegisteredListenerNotifiedOnce<D>(w: World<D>, e: Event<D>, id: ListenerId)
    requires Valid(w) && id in w.listeners && w.listeners[id].Custom?
    requires id !in Lookup(w.registry, e.kind) && Register(w.registry, e.kind, id).Ok?
    ensures var w' := w.(registry := Register(w.registry, e.kind, id).value);
            Valid(w') &&
            var r := Broadcast(w', e);
            r.raised.None? ==> && r.world.listeners[id].Custom?
                               && r.world.listeners[id].starts == w.listeners[id].starts + (if e.IsStart() then 1 else 0)
                               && r.world.listeners[id].ends == w.listeners[id].ends + (if e.IsEnd() then 1 else 0)
  {
    var ids := Lookup(w.registry, e.kind);
    CountPositive(ids, id);
    CountAppend(ids, id);
    var w' := w.(registry := Register(w.registry, e.kind, id).value);
    if Broadcast(w', e).raised.None? {
      DeliverCountsCustom(w.listeners, ids + [id], e, w.now, id);
    }
  }

  /** Once unregistered from its only installation for a kind, a listener is
      left untouched by broadcasts of that kind. */
  lemma UnregisteredListenerNotNotified<D>(w: World<D>, e: Event<D>, id: ListenerId)
    requires Valid(w) && id in w.listeners && Count(Lookup(w.registry, e.kind), id) == 1
    ensures Unregister(w.registry, e.kind, id).Ok? || !ValidKind(e.kind)
    ensures Unregister(w.registry, e.kind, id).Ok? ==>
              var w' := w.(registry := Unregister(w.registry, e.kind, id).value);
              Valid(w') && Broadcast(w', e).world.listeners[id] == w.listeners[id]
  {
    CountPositive(Lookup(w.registry, e.kind), id);
    if Unregister(w.registry, e.kind, id).Ok? {
      UnregisterRemovesOne(w.registry, e.kind, id);
      var reg' := Unregister(w.registry, e.kind, id).value;
      forall kind, x | kind in reg' && x in reg'[kind]
        ensures x in w.listeners
      {
        assert x in Lookup(reg', kind);
        if kind == e.kind {
          var lst := Lookup(w.registry, e.kind);
          var i := FirstIndex(lst, id);
          assert x in lst[..i] || x in lst[i + 1..];
        }
      }
    }
  }
}

=== FILE: emission.dfy ===
/** The emission API: `start_event`, `end_event` and the scoped `mark_event`,
    together with the instrumented code a scope wraps. */
module Emission {
  import opened Errors
  import opened Kinds
  import opened Events
  import opened Registrations
  import opened Dispatch

  /** How the instrumented code inside a scope finishes on its own. */
  datatype Exit = Normal | Raise(exc: Exc)

  /** What instrumented code does that the bus can observe. */
  datatype Action<D> =
    | Elapse(ticks: nat)                                            // work that takes time
    | Begin(kind: string, data: D)                                  // start_event(kind, data)
    | Finish(kind: string, data: D, excDetails: Option<ExcDetails>) // end_event(kind, data, exc_details)
    | Mark(kind: string, data: D, body: Body<D>)                    // with mark_event(kind, data): body

  /** A block of instrumented code: actions run in order, then the block exits. */
  datatype Body<D> = Exits(exit: Exit) | Then(action: Action<D>, rest: Body<D>)

  /** `start_event(kind, data)`: build a START (the guard may raise) and broadcast it. */
  function StartEvent<D>(w: World<D>, kind: string, data: D): (r: Step<D>)
    requires Valid(w)
    ensures Evolves(w, r.world) && r.world.now == w.now
    ensures !ValidKind(kind) ==> r == Step(w, Some(InvalidKind(kind)))
    ensures ValidKind(kind) ==> r.world.history == w.history + [Event(kind, Start, data, None)]
    ensures ValidKind(kind) ==> r == Broadcast(w, Event(kind, Start, data, None))
  {
    match NewEvent(kind, Start, data, None)
    case Err(e) => Step(w, Some(e))
    case Ok(evt) => Broadcast(w, evt)
  }

  /** `end_event(kind, data, exc_details)`: build an END carrying the triple and broadcast it. */
  function EndEvent<D>(w: World<D>, kind: string, data: D, excDetails: Option<ExcDetails>): (r: Step<D>)
    requires Valid(w)
    ensures Evolves(w, r.world) && r.world.now == w.now
    ensures !ValidKind(kind) ==> r == Step(w, Some(InvalidKind(kind)))
    ensures ValidKind(kind) ==> r.world.history == w.history + [Event(kind, End, data, excDetails)]
    ensures ValidKind(kind) ==> r == Broadcast(w, Event(kind, End, data, excDetails))
  {
    match NewEvent(kind, End, data, excDetails)
    case Err(e) => Step(w, Some(e))
    case Ok(evt) => Broadcast(w, evt)
  }

  /** Run a block: each action in turn; the first exception skips the rest. */
  function RunBody<D>(w: World<D>, b: Body<D>): (r: Step<D>)
    requires Valid(w)
    ensures Evolves(w, r.world)
    decreases b, 0
  {
    match b
    case Exits(Normal) => Step(w, None)
    case Exits(Raise(x)) => Step(w, Some(Raised(x)))
    case Then(a, rest) =>
      var s := RunAction(w, a);
      if s.raised.Some? then s else RunBody(s.world, rest)
  }

  /** A block whose first action completes runs on as the rest of the block. */
  lemma ThenContinues<D>(w: World<D>, a: Action<D>, rest: Body<D>)
    requires Valid(w) && RunAction(w, a).raised.None?
    ensures RunBody(w, Then(a, rest)) == RunBody(RunAction(w, a).world, rest)
  {
  }

  /** A block whose first action raises stops there. */
  lemma ThenStops<D>(w: World<D>, a: Action<D>, rest: Body<D>)
    requires Valid(w) && RunAction(w, a).raised.Some?
    ensures RunBody(w, Then(a, rest)) == RunAction(w, a)
  {
  }

  function RunAction<D>(w: World<D>, a: Action<D>): (r: Step<D>)
    requires Valid(w)
    ensures Evolves(w, r.world)
    decreases a, 0
  {
    match a
    case Elapse(t) => Step(w.(now := w.now + t), None)
    case Begin(kind, data) => StartEvent(w, kind, data)
    case Finish(kind, data, excDetails) => EndEvent(w, kind, data, excDetails)
    case Mark(kind, data, body) => MarkEvent(w, kind, data, body)
  }

  /** The part of `mark_event` before its exit hook runs: START, then the body
      unless `start_event` raised. */
  function Entered<D>(w: World<D>, kind: string, data: D, body: Body<D>): (r: Step<D>)
    requires Valid(w)
    ensures Evolves(w, r.world) && Valid(r.world)
    ensures StartEvent(w, kind, data).raised.Some? ==> r == StartEvent(w, kind, data)
    ensures ValidKind(kind) ==> |r.world.history| > |w.history|
                                && r.world.history[|w.history|] == Event(kind, Start, data, None)
    decreases body, 1
  {
    var entered := StartEvent(w, kind, data);
    if entered.raised.Some? then entered else RunBody(entered.world, body)
  }

  /** `mark_event(kind, data)`. The exit hook is pushed before `start_event`
      runs, so END is broadcast exactly once on every path, including a raising
      `start_event`; it carries the exit triple of whatever is propagating, and
      that exception goes on unchanged unless `end_event` itself raises. */
  function MarkEvent<D>(w: World<D>, kind: string, data: D, body: Body<D>): (r: Step<D>)
    requires Valid(w)
    ensures Evolves(w, r.world)
    ensures !ValidKind(kind) ==> r == Step(w, Some(InvalidKind(kind)))
    ensures ValidKind(kind) ==>
              var inside := Entered(w, kind, data, body);
              var exited := EndEvent(inside.world, kind, data, Some(DetailsOf(inside.raised)));
              && r.world.history == inside.world.history + [Event(kind, End, data, Some(DetailsOf(inside.raised)))]
              && r.world.now == inside.world.now
              && (inside.raised.Some? ==> r.raised.Some?)
              && (exited.raised.None? ==> r.raised == inside.raised)
              && (exited.raised.Some? ==> r.raised == exited.raised)
              && r.world == exited.world
    decreases body, 2
  {
    ExitHook(kind, data, Entered(w, kind, data, body))
  }

  /** The exit hook `mark_event` pushes: `end_event` with the triple of what
      is propagating out of the scope; if `end_event` raises, its exception
      replaces the propagating one. */
  function ExitHook<D>(kind: string, data: D, inside: Step<D>): (r: Step<D>)
    requires Valid(inside.world)
    ensures var exited := EndEvent(inside.world, kind, data, Some(DetailsOf(inside.raised)));
            && r.world == exited.world
            && (inside.raised.Some? ==> r.raised.Some?)
            && (exited.raised.None? ==> r.raised == inside.raised)
            && (exited.raised.Some? ==> r.raised == exited.raised)
  {
    var exited := EndEvent(inside.world, kind, data, Some(DetailsOf(inside.raised)));
    Step(exited.world, if exited.raised.Some? then exited.raised else inside.raised)
  }

  /** A valid scope opens with its START, and with nobody listening to the kind
      the exception leaving the scope is the one its body raised. */
  lemma MarkEventBrackets<D>(w: World<D>, kind: string, data: D, body: Body<D>)
    requires Valid(w) && ValidKind(kind)
    ensures var r := MarkEvent(w, kind, data, body);
            var inside := Entered(w, kind, data, body);
            && r.world.history[|w.history|] == Event(kind, Start, data, None)
            && (Lookup(w.registry, kind) == [] ==> r.raised == inside.raised)
  {
    var inside := Entered(w, kind, data, body);
    assert inside.world.registry == w.registry;
  }

  /** A scope whose entry and END both complete is its END broadcast. */
  lemma MarkCloses<D>(w: World<D>, kind: string, data: D, body: Body<D>)
    requires Valid(w) && Entered(w, kind, data, body).raised.None?
    requires EndEvent(Entered(w, kind, data, body).world, kind, data, Some(DetailsOf(None))).raised.None?
    ensures MarkEvent(w, kind, data, body) == EndEvent(Entered(w, kind, data, body).world, kind, data, Some(DetailsOf(None)))
  {
  }

  /** A listener raising on START does not stop the END: the exit hook is
      already pushed, so the scope broadcasts START then END, the END carrying
      the listener's exception, and the body never runs (the clock stands still).
      The scope still raises: the START failure, unless the END broadcast raises
      in its place. */
  lemma MarkEventStartRaises<D>(w: World<D>, kind: string, data: D, body: Body<D>)
    requires Valid(w) && ValidKind(kind) && StartEvent(w, kind, data).raised.Some?
    ensures var r := MarkEvent(w, kind, data, body);
            var entered := StartEvent(w, kind, data);
            var failure := entered.raised;
            && r.world.now == w.now
            && r.world.history == w.history + [Event(kind, Start, data, None),
                                               Event(kind, End, data, Some(DetailsOf(failure)))]
            && r.raised.Some?
            && (EndEvent(entered.world, kind, data, Some(DetailsOf(failure))).raised.None? ==> r.raised == failure)
  {
    var entered := StartEvent(w, kind, data);
    assert Entered(w, kind, data, body) == entered;
  }
}

=== FILE: errors.dfy ===
/** Failure values of the event bus.

    Python signals every failure with an exception; here an operation that can
    fail returns a `Result`, or a state paired with the error it raised when the
    side effects made before the raise must survive it. */
module Errors {

  datatype Option<+T> = None | Some(value: T)

  /** An exception raised by code the bus does not own: a custom listener's
      callback or the instrumented body. Only its type name and message matter. */
  datatype Exc = Exc(etype: string, message: string)

  datatype Error =
    | InvalidKind(kind: string)              // ValueError raised by the kind guard
    | NotRegistered(kind: string, id: nat)   // ValueError raised by list.remove in unregister
    | NoDuration                             // AttributeError: duration read before it was set
    | NoStartTime                            // TypeError: `timer() - None` in TimingListener.on_end
    | Raised(exc: Exc)                       // anything raised by a custom listener or a body

  /** The Python exception class each failure surfaces as. */
  function TypeName(e: Error): (r: string)
    ensures e.InvalidKind? || e.NotRegistered? ==> r == "ValueError"
    ensures e.NoDuration? ==> r == "AttributeError"
    ensures e.NoStartTime? ==> r == "TypeError"
    ensures e.Raised? ==> r == e.exc.etype
  {
    match e
    case InvalidKind(_) => "ValueError"
    case NotRegistered(_, _) => "ValueError"
    case NoDuration => "AttributeError"
    case NoStartTime => "TypeError"
    case Raised(x) => x.etype
  }

  /** Stands for the traceback object; its contents are not modelled. */
  datatype Traceback = Traceback

  /** The `(type, value, traceback)` triple that `__exit__` receives. */
  datatype ExcDetails = ExcDetails(etype: Option<string>, value: Option<Error>, traceback: Option<Traceback>)

  /** The triple passed on a normal exit: `(None, None, None)`. */
  function NoDetails(): ExcDetails
  {
    ExcDetails(None, None, None)
  }

  /** The triple an exit callback receives when `raised` is (or is not) propagating. */
  function DetailsOf(raised: Option<Error>): (d: ExcDetails)
    ensures raised.None? ==> d == NoDetails()
    ensures raised.Some? ==> d.etype == Some(TypeName(raised.value)) && d.traceback.Some?
    ensures d.value == raised
  {
    match raised
    case None => NoDetails()
    case Some(e) => ExcDetails(Some(TypeName(e)), Some(e), Some(Traceback))
  }

  datatype Result<+T> = Ok(value: T) | Err(error: Error)
}

=== FILE: events.dfy ===
/** The immutable event record and its derived predicates. */
module Events {
  import opened Errors
  import opened Kinds

  datatype Status = Start | End

  /** One occurrence of a kind. `data` is the opaque payload; `excDetails` is the
      exit triple an END carries, absent (Python's `None`) by default. */
  datatype Event<D> = Event(kind: string, status: Status, data: D, excDetails: Option<ExcDetails>)
  {
    predicate IsStart()
    {
      status == Start
    }

    predicate IsEnd()
    {
      status == End
    }

    /** The predicate exactly as the source writes it: true when the exception
        type slot is empty, that is, when the exit was normal. Reading it on an
        event without a triple fails in the source, hence the precondition. */
    predicate IsFailed()
      requires excDetails.Some?
    {
      excDetails.value.etype.None?
    }
  }

  /** Event construction: the kind goes through the guard, everything else is stored as given. */
  function NewEvent<D>(kind: string, status: Status, data: D, excDetails: Option<ExcDetails>): (r: Result<Event<D>>)
    ensures r.Ok? <==> GuardKind(kind).Ok?
    ensures r.Ok? ==> r.value.kind == kind && r.value.status == status
                      && r.value.data == data && r.value.excDetails == excDetails
    ensures r.Err? ==> r.error == InvalidKind(kind)
  {
    match GuardKind(kind)
    case Err(e) => Err(e)
    case Ok(k) => Ok(Event(k, status, data, excDetails))
  }

  /** Exactly one of `IsStart` and `IsEnd` holds for every event. */
  lemma StartEndExclusive<D>(e: Event<D>)
    ensures e.IsStart() <==> !e.IsEnd()
  {
  }

  /** The literal polarity of `IsFailed`: an END describing a normal exit reports
      failed, an END carrying an exception reports not failed. */
  lemma IsFailedPolarity<D>(kind: string, data: D, raised: Option<Error>)
    ensures Event(kind, End, data, Some(DetailsOf(raised))).IsFailed() <==> raised.None?
  {
  }
}

=== FILE: kinds.dfy ===
/** The event-kind guard: kinds under the reserved "numba:" prefix must be
    built in, every other string is a valid custom kind. */
module Kinds {
  import opened Errors

  const Prefix: string := "numba:"

  const BuiltinKinds: set<string> := {"numba:compiler_lock", "numba:compile"}

  predicate StartsWith(s: string, p: string)
  {
    |p| <= |s| && s[..|p|] == p
  }

  /** The kinds the guard lets through. */
  predicate ValidKind(kind: string)
  {
    !StartsWith(kind, Prefix) || kind in BuiltinKinds
  }

  /** Returns the kind unchanged, or raises when it is reserved but not built in. */
  function GuardKind(kind: string): (r: Result<string>)
    ensures r.Ok? <==> ValidKind(kind)
    ensures r.Ok? ==> r.value == kind
    ensures r.Err? ==> r.error == InvalidKind(kind)
  {
    if StartsWith(kind, Prefix) && kind !in BuiltinKinds then Err(InvalidKind(kind)) else Ok(kind)
  }

  /** The guard, characterised without the prefix test: it rejects exactly the
      strings spelled "numba:" followed by something, other than the built-ins. */
  lemma GuardRejectsReservedSpellings(kind: string)
    ensures GuardKind(kind).Err? <==> (exists rest :: kind == Prefix + rest) && kind !in BuiltinKinds
  {
    if StartsWith(kind, Prefix) {
      var rest := kind[|Prefix|..];
      assert kind == Prefix + rest;
    }
    if exists rest :: kind == Prefix + rest {
      var rest :| kind == Prefix + rest;
      assert kind[..|Prefix|] == Prefix;
    }
  }

  /** Guarding twice is guarding once. */
  lemma GuardIdempotent(kind: string)
    requires GuardKind(kind).Ok?
    ensures GuardKind(GuardKind(kind).value) == GuardKind(kind)
  {
  }

  lemma GuardExamples()
    ensures GuardKind("numba:compile") == Ok("numba:compile")
    ensures GuardKind("numba:compiler_lock") == Ok("numba:compiler_lock")
    ensures GuardKind("numba:typeinfer") == Err(InvalidKind("numba:typeinfer"))
    ensures GuardKind("numba") == Ok("numba")
    ensures GuardKind("my:numba:phase") == Ok("my:numba:phase")
  {
    assert "numba:typeinfer"[..|Prefix|] == Prefix;
    assert "my:numba:phase"[..|Prefix|] != Prefix by {
      assert "my:numba:phase"[0] != Prefix[0];
    }
  }
}

=== FILE: listeners.dfy ===
/** Listener state and the callbacks of the two built-in listeners, plus a
    custom listener standing for user code that may raise. */
module Listeners {
  import opened Errors
  import opened Events

  type ListenerId = nat

  datatype ListenerState<D> =
      /** TimingListener: first START time, nesting depth, last measured duration. */
    | Timing(ts: Option<int>, depth: int, duration: Option<int>)
      /** RecordingListener: every observed event with the time it arrived. */
    | Recording(buffer: seq<(int, Event<D>)>)
      /** A user-defined listener: raises the given exception from `on_start` /
          `on_end`, or else counts the call. */
    | Custom(startFault: Option<Exc>, endFault: Option<Exc>, starts: nat, ends: nat)

  /** `TimingListener()`: no timestamp, depth 0, no `_duration` attribute.
      Reading the duration of a timer nobody notified raises. */
  function NewTimer<D>(): (r: ListenerState<D>)
    ensures r.Timing? && TimingWellFormed(r)
    ensures Duration(r) == Err(NoDuration)
  {
    Timing(None, 0, None)
  }

  /** `RecordingListener()`: an empty buffer. */
  function NewRecorder<D>(): (r: ListenerState<D>)
    ensures r.Recording? && |r.buffer| == 0
  {
    Recording([])
  }

  /** A listener's state after a callback, and the exception the callback raised. */
  datatype Notified<D> = Notified(state: ListenerState<D>, raised: Option<Error>)

  /** A timer is well formed when a missing timestamp means no START was ever
      counted: the depth never went above zero and nothing was measured. */
  predicate TimingWellFormed<D>(s: ListenerState<D>)
  {
    s.Timing? ==> (s.ts.None? ==> s.depth <= 0 && s.duration.None?)
  }

  function OnStart<D>(s: ListenerState<D>, e: Event<D>, now: int): (r: Notified<D>)
    ensures s.Timing? ==> r.raised.None? && r.state.Timing?
    ensures s.Timing? ==> r.state.depth == s.depth + 1 && r.state.duration == s.duration
    ensures s.Timing? && s.ts.Some? ==> r.state.ts == s.ts
    ensures s.Timing? && s.ts.None? ==> r.state.ts == Some(now)
    ensures s.Recording? ==> r.raised.None? && r.state == Recording(s.buffer + [(now, e)])
    ensures s.Custom? ==> (r.raised.Some? <==> s.startFault.Some?)
    ensures s.Custom? && r.raised.Some? ==> r.raised == Some(Raised(s.startFault.value))
  {
    match s
    case Timing(ts, depth, duration) =>
      var ts' := if ts.None? then Some(now) else ts;
      Notified(Timing(ts', depth + 1, duration), None)
    case Recording(buffer) =>
      Notified(Recording(buffer + [(now, e)]), None)
    case Custom(startFault, _, starts, _) =>
      if startFault.Some? then Notified(s, Some(Raised(startFault.value)))
      else Notified(s.(starts := starts + 1), None)
  }

  function OnEnd<D>(s: ListenerState<D>, e: Event<D>, now: int): (r: Notified<D>)
    ensures s.Timing? ==> r.state.Timing? && r.state.ts == s.ts && r.state.depth == s.depth - 1
    ensures s.Timing? && r.state.duration != s.duration ==> r.state.depth == 0
    ensures s.Timing? && s.depth == 1 && s.ts.Some? ==>
              r.raised.None? && r.state.duration == Some(now - s.ts.value)
    ensures s.Timing? && s.depth != 1 ==> r.raised.None? && r.state == s.(depth := s.depth - 1)
    ensures s.Recording? ==> r.raised.None? && r.state == Recording(s.buffer + [(now, e)])
    ensures s.Custom? ==> (r.raised.Some? <==> s.endFault.Some?)
    ensures s.Custom? && r.raised.Some? ==> r.raised == Some(Raised(s.endFault.value))
  {
    match s
    case Timing(ts, depth, duration) =>
      var depth' := depth - 1;
      if depth' == 0 then
        match ts
        case Some(t) => Notified(Timing(ts, depth', Some(now - t)), None)
        case None => Notified(Timing(ts, depth', duration), Some(NoStartTime))
      else Notified(Timing(ts, depth', duration), None)
    case Recording(buffer) =>
      Notified(Recording(buffer + [(now, e)]), None)
    case Custom(_, endFault, _, ends) =>
      if endFault.Some? then Notified(s, Some(Raised(endFault.value)))
      else Notified(s.(ends := ends + 1), None)
  }

  /** `Listener.notify`: route a START to `on_start` and an END to `on_end`.
      A custom listener's counters show which callback ran. */
  function Notify<D>(s: ListenerState<D>, e: Event<D>, now: int): (r: Notified<D>)
    ensures s.Custom? && e.IsStart() && r.raised.None? ==> r.state == s.(starts := s.starts + 1)
    ensures s.Custom? && e.IsEnd() && r.raised.None? ==> r.state == s.(ends := s.ends + 1)
    ensures s.Custom? && r.raised.Some? ==> r.state == s
    ensures s.Custom? ==> (r.raised.Some? <==> (if e.IsStart() then s.startFault.Some? else s.endFault.Some?))
    ensures s.Custom? && r.raised.Some? ==>
              r.raised == Some(Raised(if e.IsStart() then s.startFault.value else s.endFault.value))
    ensures s.Timing? ==> r.state.Timing? && r.state.depth == s.depth + (if e.IsStart() then 1 else -1)
    ensures s.Recording? ==> r.raised.None? && r.state == Recording(s.buffer + [(now, e)])
    ensures s.Timing? <==> r.state.Timing?
    ensures s.Recording? <==> r.state.Recording?
    ensures s.Custom? <==> r.state.Custom?
    ensures TimingWellFormed(s) ==> TimingWellFormed(r.state)
    ensures s.Timing? && TimingWellFormed(s) ==> r.raised.None?
  {
    match e.status
    case Start => OnStart(s, e, now)
    case End => OnEnd(s, e, now)
  }

  /** The `duration` property: fails until a depth-zero END has set it. */
  function Duration<D>(s: ListenerState<D>): (r: Result<int>)
    requires s.Timing?
    ensures r.Ok? <==> s.duration.Some?
    ensures r.Err? ==> r.error == NoDuration
  {
    match s.duration
    case Some(d) => Ok(d)
    case None => Err(NoDuration)
  }

  /** The first START a fresh timer sees stamps the time and opens the outermost scope. */
  lemma FreshTimerFirstStart<D>(e: Event<D>, now: int)
    ensures OnStart(NewTimer(), e, now) == Notified(Timing(Some(now), 1, None), None)
  {
  }

  /** The first event a fresh recorder is told about, START or END, becomes its only entry. */
  lemma FreshRecorderFirstEvent<D>(e: Event<D>, now: int)
    ensures Notify(NewRecorder(), e, now) == Notified(Recording([(now, e)]), None)
  {
  }

  /** A recorder only ever appends one entry per notification; earlier entries stay. */
  lemma RecorderAppendsOne<D>(s: ListenerState<D>, e: Event<D>, now: int)
    requires s.Recording?
    ensures var r := Notify(s, e, now);
            && r.raised.None? && r.state.Recording?
            && |r.state.buffer| == |s.buffer| + 1
            && r.state.buffer[..|s.buffer|] == s.buffer
            && r.state.buffer[|s.buffer|] == (now, e)
  {
    var r := Notify(s, e, now);
    assert r.state.buffer == s.buffer + [(now, e)];
  }
}

=== FILE: recorder_proofs.dfy ===
/** What a RecordingListener's buffer holds when it is the only listener of its
    kind and installed for no other: every event of its kind broadcast while it
    is installed, in broadcast order, and nothing else. With other listeners of
    the kind, one that raises ahead of it stops the broadcast before it. */
module RecorderProofs {
  import opened Errors
  import opened Kinds
  import opened Events
  import opened Listeners
  import opened Registrations
  import opened Dispatch
  import opened Emission
  import opened Scopes
  import opened Traces

  /** The events of a buffer, without their timestamps. */
  function Recorded<D>(buffer: seq<(int, Event<D>)>): (es: seq<Event<D>>)
    ensures |es| == |buffer|
  {
    if |buffer| == 0 then [] else Recorded(buffer[..|buffer| - 1]) + [buffer[|buffer| - 1].1]
  }

  /** The events of one kind in a history, in order. */
  function OfKind<D>(history: seq<Event<D>>, kind: string): seq<Event<D>>
  {
    if |history| == 0 then []
    else OfKind(history[..|history| - 1], kind)
         + (if history[|history| - 1].kind == kind then [history[|history| - 1]] else [])
  }

  lemma RecordedAppend<D>(buffer: seq<(int, Event<D>)>, entry: (int, Event<D>))
    ensures Recorded(buffer + [entry]) == Recorded(buffer) + [entry.1]
  {
    assert (buffer + [entry])[..|buffer|] == buffer;
  }

  lemma {:induction false} OfKindConcat<D>(a: seq<Event<D>>, b: seq<Event<D>>, kind: string)
    ensures OfKind(a + b, kind) == OfKind(a, kind) + OfKind(b, kind)
    decreases |b|
  {
    if |b| == 0 {
      assert a + b == a;
    } else {
      var b' := b[..|b| - 1];
      assert (a + b)[..|a + b| - 1] == a + b';
      OfKindConcat(a, b', kind);
    }
  }

  /** The recorder is the only listener for `kind` and is installed for no other kind. */
  ghost predicate SoleRecorder<D>(w: World<D>, kind: string, rid: ListenerId)
  {
    && Valid(w) && rid in w.listeners && w.listeners[rid].Recording?
    && Lookup(w.registry, kind) == [rid]
    && (forall k | k != kind :: rid !in Lookup(w.registry, k))
  }

  /** Between `w` and `w'` the recorder gained exactly the `kind` events broadcast in between. */
  ghost predicate Mirrors<D>(w: World<D>, w': World<D>, kind: string, rid: ListenerId)
    requires rid in w.listeners && w.listeners[rid].Recording?
    requires rid in w'.listeners && w'.listeners[rid].Recording?
    requires w.history <= w'.history
  {
    Recorded(w'.listeners[rid].buffer) == Recorded(w.listeners[rid].buffer) + OfKind(w'.history[|w.history|..], kind)
  }

  lemma SoleRecorderEvolves<D>(w: World<D>, w': World<D>, kind: string, rid: ListenerId)
    requires SoleRecorder(w, kind, rid) && Evolves(w, w')
    ensures SoleRecorder(w', kind, rid)
  {
    assert Variant(w'.listeners[rid]) == Variant(w.listeners[rid]);
  }

  lemma MirrorsChain<D>(w0: World<D>, w1: World<D>, w2: World<D>, kind: string, rid: ListenerId)
    requires SoleRecorder(w0, kind, rid) && Evolves(w0, w1) && Evolves(w1, w2)
    requires SoleRecorder(w1, kind, rid) && SoleRecorder(w2, kind, rid)
    requires Mirrors(w0, w1, kind, rid) && Mirrors(w1, w2, kind, rid)
    ensures Mirrors(w0, w2, kind, rid)
  {
    var h0, h1, h2 := w0.history, w1.history, w2.history;
    assert h2[|h0|..] == h1[|h0|..] + h2[|h1|..];
    OfKindConcat(h1[|h0|..], h2[|h1|..], kind);
  }

  lemma MirrorsRefl<D>(w: World<D>, kind: string, rid: ListenerId)
    requires SoleRecorder(w, kind, rid)
    ensures Mirrors(w, w, kind, rid)
  {
    assert w.history[|w.history|..] == [];
  }

  /** One broadcast: the recorder appends the event exactly when it has its kind. */
  lemma RecorderSeesBroadcast<D>(w: World<D>, e: Event<D>, kind: string, rid: ListenerId)
    requires SoleRecorder(w, kind, rid)
    ensures var w' := Broadcast(w, e).world;
            SoleRecorder(w', kind, rid) && Mirrors(w, w', kind, rid)
  {
    var w' := Broadcast(w, e).world;
    SoleRecorderEvolves(w, w', kind, rid);
    var buffer := w.listeners[rid].buffer;
    assert w'.history[|w.history|..] == [e];
    assert OfKind([e], kind) == [] + (if e.kind == kind then [e] else []) by {
      assert [e][..0] == [];
    }
    if e.kind == kind {
      BroadcastToSole(w, e, rid);
      assert w'.listeners[rid].buffer == buffer + [(w.now, e)];
      RecordedAppend(buffer, (w.now, e));
    } else {
      assert rid !in Lookup(w.registry, e.kind);
      assert w'.listeners[rid] == w.listeners[rid];
    }
  }

  lemma RecorderSeesStart<D>(w: World<D>, k: string, data: D, kind: string, rid: ListenerId)
    requires SoleRecorder(w, kind, rid)
    ensures var w' := StartEvent(w, k, data).world;
            SoleRecorder(w', kind, rid) && Mirrors(w, w', kind, rid)
  {
    if ValidKind(k) {
      RecorderSeesBroadcast(w, Event(k, Start, data, None), kind, rid);
    } else {
      MirrorsRefl(w, kind, rid);
    }
  }

  lemma RecorderSeesEnd<D>(w: World<D>, k: string, data: D, exc: Option<ExcDetails>, kind: string, rid: ListenerId)
    requires SoleRecorder(w, kind, rid)
    ensures var w' := EndEvent(w, k, data, exc).world;
            SoleRecorder(w', kind, rid) && Mirrors(w, w', kind, rid)
  {
    if ValidKind(k) {
      RecorderSeesBroadcast(w, Event(k, End, data, exc), kind, rid);
    } else {
      MirrorsRefl(w, kind, rid);
    }
  }

  /** Whatever the code does, and however it exits, the recorder mirrors the
      broadcasts of its kind. */
  lemma {:induction false} RecorderMirrorsBody<D>(w: World<D>, b: Body<D>, kind: string, rid: ListenerId)
    requires SoleRecorder(w, kind, rid)
    ensures var w' := RunBody(w, b).world;
            SoleRecorder(w', kind, rid) && Mirrors(w, w', kind, rid)
    decreases b, 0
  {
    match b
    case Exits(_) =>
      MirrorsRefl(w, kind, rid);
    case Then(a, rest) =>
      RecorderMirrorsAction(w, a, kind, rid);
      var s := RunAction(w, a);
      if s.raised.None? {
        RecorderMirrorsBody(s.world, rest, kind, rid);
        MirrorsChain(w, s.world, RunBody(s.world, rest).world, kind, rid);
      }
  }

  lemma {:induction false} RecorderMirrorsAction<D>(w: World<D>, a: Action<D>, kind: string, rid: ListenerId)
    requires SoleRecorder(w, kind, rid)
    ensures var w' := RunAction(w, a).world;
            SoleRecorder(w', kind, rid) && Mirrors(w, w', kind, rid)
    decreases a, 0
  {
    match a
    case Elapse(t) =>
      MirrorsRefl(w, kind, rid);
      assert w.(now := w.now + t).history == w.history;
    case Begin(k, data) =>
      RecorderSeesStart(w, k, data, kind, rid);
    case Finish(k, data, exc) =>
      RecorderSeesEnd(w, k, data, exc, kind, rid);
    case Mark(k, data, body) =>
      RecorderMirrorsMark(w, k, data, body, kind, rid);
  }

  lemma {:induction false} RecorderMirrorsMark<D>(w: World<D>, k: string, data: D, body: Body<D>, kind: string, rid: ListenerId)
    requires SoleRecorder(w, kind, rid)
    ensures var w' := MarkEvent(w, k, data, body).world;
            SoleRecorder(w', kind, rid) && Mirrors(w, w', kind, rid)
    decreases body, 1
  {
    var entered := StartEvent(w, k, data);
    RecorderSeesStart(w, k, data, kind, rid);
    var inside := Entered(w, k, data, body);
    if entered.raised.None? {
      assert inside == RunBody(entered.world, body);
      RecorderMirrorsBody(entered.world, body, kind, rid);
      MirrorsChain(w, entered.world, inside.world, kind, rid);
    }
    var exc := Some(DetailsOf(inside.raised));
    RecorderSeesEnd(inside.world, k, data, exc, kind, rid);
    MirrorsChain(w, inside.world, EndEvent(inside.world, k, data, exc).world, kind, rid);
  }

  /** `install_recorder(kind)` on a kind nobody else listens to: on every exit
      path the buffer holds exactly the `kind` events broadcast inside the scope. */
  lemma InstallRecorderMirrors<D>(w: World<D>, kind: string, body: Body<D>)
    requires Valid(w) && Lookup(w.registry, kind) == []
    ensures var r := InstallRecorder(w, kind, body);
            Recorded(r.world.listeners[r.recorder].buffer) == OfKind(r.world.history[|w.history|..], kind)
  {
    var r := InstallRecorder(w, kind, body);
    if ValidKind(kind) {
      var w1 := Armed(w, kind, NewRecorder()).value;
      var rid := w.nextId;
      assert forall k | k != kind :: rid !in Lookup(w1.registry, k);
      assert SoleRecorder(w1, kind, rid);
      RecorderMirrorsBody(w1, body, kind, rid);
      assert Recorded(w1.listeners[rid].buffer) == [];
    } else {
      assert r.world.history[|w.history|..] == [];
    }
  }

  /** `n` consecutive `mark_event(kind, data)` scopes with empty bodies. */
  function Repeat<D>(kind: string, data: D, n: nat): Body<D>
  {
    if n == 0 then Exits(Normal) else Then(Mark(kind, data, Exits(Normal)), Repeat(kind, data, n - 1))
  }

  /** Parity by recursion rather than `i % 2 == 0`: unfolding it twice is cheap,
      where nonlinear remainder arithmetic makes the solver search. */
  predicate Even(i: nat)
  {
    if i < 2 then i == 0 else Even(i - 2)
  }

  /** The `i`-th event `n` repeated scopes broadcast: START, END, START, ... */
  function Expected<D>(kind: string, data: D, i: nat): Event<D>
  {
    if Even(i) then Event(kind, Start, data, None) else Event(kind, End, data, Some(NoDetails()))
  }

  /** `n` scopes broadcast `2n` events, alternating START and END. */
  lemma {:induction false} RepeatTrace<D>(kind: string, data: D, n: nat)
    requires ValidKind(kind)
    ensures Outcome(Repeat(kind, data, n)) == None
    ensures var t := Trace(Repeat(kind, data, n));
            |t| == 2 * n && forall i | 0 <= i < 2 * n :: t[i] == Expected(kind, data, i)
  {
    if n > 0 {
      RepeatTrace(kind, data, n - 1);
      var done: Body<D> := Exits(Normal);
      var pair := [Expected(kind, data, 0), Expected(kind, data, 1)];
      assert Trace(done) == [] && Outcome(done) == None;
      assert ActionTrace(Mark(kind, data, done)) == pair;
      var t := Trace(Repeat(kind, data, n));
      var rest := Trace(Repeat(kind, data, n - 1));
      assert t == pair + rest;
      forall i | 0 <= i < 2 * n
        ensures t[i] == Expected(kind, data, i)
      {
        if i >= 2 {
          assert t[i] == rest[i - 2];
        }
      }
    }
  }

  lemma {:induction false} OfKindSame<D>(history: seq<Event<D>>, kind: string)
    requires forall i | 0 <= i < |history| :: history[i].kind == kind
    ensures OfKind(history, kind) == history
  {
    if |history| > 0 {
      OfKindSame(history[..|history| - 1], kind);
    }
  }

  lemma {:induction false} RepeatEmitsOnly<D>(kind: string, data: D, n: nat)
    ensures EmitsOnly(kind, Repeat(kind, data, n))
  {
    var done: Body<D> := Exits(Normal);
    assert EmitsOnly(kind, done);
    if n > 0 {
      RepeatEmitsOnly(kind, data, n - 1);
      assert EmitsOnlyAction(kind, Mark(kind, data, done));
    }
  }

  /** A recorder that is the only listener of its kind, observing `n` scopes,
      gains exactly `2n` entries, alternating START and END, after its earlier ones. */
  lemma RepeatedMarksAlternate<D>(w: World<D>, kind: string, data: D, rid: ListenerId, n: nat)
    requires SoleRecorder(w, kind, rid) && ValidKind(kind)
    ensures var r := RunBody(w, Repeat(kind, data, n));
            var before := w.listeners[rid].buffer;
            var after := r.world.listeners[rid].buffer;
            && r.raised.None?
            && |after| == |before| + 2 * n
            && Recorded(after)[..|before|] == Recorded(before)
            && forall i | 0 <= i < 2 * n :: Recorded(after)[|before| + i] == Expected(kind, data, i)
  {
    var b := Repeat(kind, data, n);
    var r := RunBody(w, b);
    assert QuietFor(w, kind) by {
      assert forall id | id in Lookup(w.registry, kind) :: id == rid;
    }
    RepeatEmitsOnly(kind, data, n);
    QuietForBody(w, kind, b);
    RepeatTrace(kind, data, n);
    RecorderMirrorsBody(w, b, kind, rid);
    var t := Trace(b);
    assert r.world.history[|w.history|..] == t;
    OfKindSame(t, kind);
  }
}

=== FILE: registry.dfy ===
/** The registry: each kind's ordered list of installed listeners. */
module Registrations {
  import opened Errors
  import opened Kinds
  import opened Listeners

  /** `_registered`. A kind missing from the map has the empty list, as the
      `defaultdict(list)` gives it. */
  type Registry = map<string, seq<ListenerId>>

  function Lookup(reg: Registry, kind: string): (r: seq<ListenerId>)
    ensures kind !in reg ==> r == []
    ensures kind in reg ==> r == reg[kind]
  {
    if kind in reg then reg[kind] else []
  }

  /** Two registries install the same listeners, in the same order, for every kind. */
  ghost predicate SameListeners(a: Registry, b: Registry)
  {
    forall kind :: Lookup(a, kind) == Lookup(b, kind)
  }

  /** How many times `x` occurs in `s`: how often a broadcast notifies it. */
  function Count(s: seq<ListenerId>, x: ListenerId): nat
  {
    if |s| == 0 then 0 else (if s[0] == x then 1 else 0) + Count(s[1..], x)
  }

  lemma {:induction false} CountPositive(s: seq<ListenerId>, x: ListenerId)
    ensures x in s <==> Count(s, x) > 0
  {
    if |s| > 0 {
      CountPositive(s[1..], x);
      assert x in s <==> s[0] == x || x in s[1..];
    }
  }

  /** The position of the first entry equal to `x`. */
  function FirstIndex(s: seq<ListenerId>, x: ListenerId): (i: nat)
    requires x in s
    ensures i < |s| && s[i] == x && x !in s[..i]
  {
    if s[0] == x then 0
    else
      var j := FirstIndex(s[1..], x);
      assert s[..j + 1] == [s[0]] + s[1..][..j];
      j + 1
  }

  /** `list.remove(x)`: drops the first entry equal to `x`, keeps the rest in order. */
  function RemoveFirst(s: seq<ListenerId>, x: ListenerId): (r: seq<ListenerId>)
    requires x in s
    ensures r == s[..FirstIndex(s, x)] + s[FirstIndex(s, x) + 1..]
  {
    if s[0] == x then s[1..]
    else
      var rest := RemoveFirst(s[1..], x);
      var j := FirstIndex(s[1..], x);
      assert s[..j + 1] == [s[0]] + s[1..][..j];
      assert s[j + 2..] == s[1..][j + 1..];
      [s[0]] + rest
  }

  /** `register(kind, listener)`: guard the kind, append the listener, duplicates allowed. */
  function Register(reg: Registry, kind: string, id: ListenerId): (r: Result<Registry>)
    ensures r.Ok? <==> ValidKind(kind)
    ensures r.Err? ==> r.error == InvalidKind(kind)
    ensures r.Ok? ==> Lookup(r.value, kind) == Lookup(reg, kind) + [id]
    ensures r.Ok? ==> forall k :: k != kind ==> Lookup(r.value, k) == Lookup(reg, k)
  {
    match GuardKind(kind)
    case Err(e) => Err(e)
    case Ok(k) => Ok(reg[k := Lookup(reg, k) + [id]])
  }

  /** `unregister(kind, listener)`: guard the kind, then remove the first equal
      entry, raising when there is none. */
  function Unregister(reg: Registry, kind: string, id: ListenerId): (r: Result<Registry>)
    ensures r.Ok? <==> ValidKind(kind) && id in Lookup(reg, kind)
    ensures !ValidKind(kind) ==> r == Err(InvalidKind(kind))
    ensures ValidKind(kind) && id !in Lookup(reg, kind) ==> r == Err(NotRegistered(kind, id))
    ensures r.Ok? ==> Lookup(r.value, kind) == RemoveFirst(Lookup(reg, kind), id)
    ensures r.Ok? ==> forall k :: k != kind ==> Lookup(r.value, k) == Lookup(reg, k)
  {
    match GuardKind(kind)
    case Err(e) => Err(e)
    case Ok(k) =>
      var lst := Lookup(reg, k);
      if id in lst then Ok(reg[k := RemoveFirst(lst, id)]) else Err(NotRegistered(k, id))
  }

  /** Removing the first `x` lowers its count by exactly one and leaves every other count alone. */
  lemma {:induction false} RemoveFirstCount(s: seq<ListenerId>, x: ListenerId, y: ListenerId)
    requires x in s
    ensures Count(RemoveFirst(s, x), y) == if y == x then Count(s, y) - 1 else Count(s, y)
  {
    if s[0] != x {
      RemoveFirstCount(s[1..], x, y);
      var r := RemoveFirst(s, x);
      assert r == [s[0]] + RemoveFirst(s[1..], x);
      assert r[1..] == RemoveFirst(s[1..], x);
    }
  }

  /** Removing the first `x` from a list that ends in its only `x` restores the list before it. */
  lemma {:induction false} RemoveFirstAppended(s: seq<ListenerId>, x: ListenerId)
    requires x !in s
    ensures x in s + [x] && RemoveFirst(s + [x], x) == s
  {
    if |s| > 0 {
      RemoveFirstAppended(s[1..], x);
      assert (s + [x])[1..] == s[1..] + [x];
    }
  }

  /** Unregistering a listener right after registering it, when it was not
      already installed for that kind, succeeds and gives back the same lists. */
  lemma UnregisterUndoesRegister(reg: Registry, kind: string, id: ListenerId)
    requires Register(reg, kind, id).Ok?
    requires id !in Lookup(reg, kind)
    ensures var r := Unregister(Register(reg, kind, id).value, kind, id);
            r.Ok? && SameListeners(r.value, reg)
  {
    RemoveFirstAppended(Lookup(reg, kind), id);
  }

  /** Unregistering removes one installation: a listener registered once is
      no longer installed afterwards. */
  lemma UnregisterRemovesOne(reg: Registry, kind: string, id: ListenerId)
    requires Unregister(reg, kind, id).Ok?
    ensures Count(Lookup(Unregister(reg, kind, id).value, kind), id) == Count(Lookup(reg, kind), id) - 1
    ensures Count(Lookup(reg, kind), id) == 1 ==> id !in Lookup(Unregister(reg, kind, id).value, kind)
  {
    RemoveFirstCount(Lookup(reg, kind), id, id);
    CountPositive(Lookup(Unregister(reg, kind, id).value, kind), id);
  }
}

=== FILE: scopes.dfy ===
/** The scoped installers `install_timer` and `install_recorder`. */
module Scopes {
  import opened Errors
  import opened Kinds
  import opened Listeners
  import opened Registrations
  import opened Dispatch
  import opened Emission

  /** Creating a listener object: it gets the next unused id. */
  function Allocate<D>(w: World<D>, s: ListenerState<D>): (w': World<D>)
    requires Valid(w)
    ensures Valid(w') && w.nextId !in w.listeners
    ensures w'.listeners == w.listeners[w.nextId := s] && w'.nextId == w.nextId + 1
    ensures w'.registry == w.registry && w'.now == w.now && w'.history == w.history
  {
    w.(listeners := w.listeners[w.nextId := s], nextId := w.nextId + 1)
  }

  /** The state a scope's body starts in: the fresh listener created and registered. */
  function Armed<D>(w: World<D>, kind: string, s: ListenerState<D>): (r: Result<World<D>>)
    requires Valid(w)
    ensures r.Ok? <==> ValidKind(kind)
    ensures r.Err? ==> r.error == InvalidKind(kind)
    ensures r.Ok? ==> && Valid(r.value)
                      && r.value.listeners == w.listeners[w.nextId := s] && w.nextId !in w.listeners
                      && Lookup(r.value.registry, kind) == Lookup(w.registry, kind) + [w.nextId]
                      && (forall k :: k != kind ==> Lookup(r.value.registry, k) == Lookup(w.registry, k))
                      && r.value.now == w.now && r.value.history == w.history
  {
    var w1 := Allocate(w, s);
    match Register(w1.registry, kind, w.nextId)
    case Err(e) => Err(e)
    case Ok(reg) => Ok(w1.(registry := reg))
  }

  /** The `finally` clause of a scope: the scope's listener is unregistered
      again, whatever the body did to the bus. */
  function Disarm<D>(w: World<D>, kind: string, s: ListenerState<D>, inside: World<D>): (w': World<D>)
    requires Valid(w) && Armed(w, kind, s).Ok? && Evolves(Armed(w, kind, s).value, inside)
    ensures Valid(w') && SameListeners(w'.registry, w.registry)
    ensures forall k :: w.nextId !in Lookup(w'.registry, k)
    ensures w'.listeners == inside.listeners && w'.history == inside.history && w'.now == inside.now
  {
    UnregisterUndoesRegister(w.registry, kind, w.nextId);
    inside.(registry := Unregister(inside.registry, kind, w.nextId).value)
  }

  /** What `install_timer` leaves behind: the bus, the timer's id, the
      exception leaving the scope, and the argument `callback` was called with, if it was. */
  datatype TimerRun<D> = TimerRun(world: World<D>, timer: ListenerId, raised: Option<Error>, reported: Option<int>)

  /** `install_timer(kind, callback)` around `body`. The timer is removed on
      every path; `callback(listener.duration)` runs only after a normal exit,
      after the removal, and is skipped when reading the duration raises. */
  function InstallTimer<D>(w: World<D>, kind: string, body: Body<D>): (r: TimerRun<D>)
    requires Valid(w)
    ensures Valid(r.world)
    ensures r.timer == w.nextId && r.timer !in w.listeners
    ensures r.timer in r.world.listeners && r.world.listeners[r.timer].Timing?
    ensures SameListeners(r.world.registry, w.registry)
    ensures forall k :: r.timer !in Lookup(r.world.registry, k)
    ensures !ValidKind(kind) ==> r.raised == Some(InvalidKind(kind)) && r.reported.None?
                                 && r.world.history == w.history
    ensures ValidKind(kind) ==>
              var inside := RunBody(Armed(w, kind, NewTimer()).value, body);
              && r.world.listeners == inside.world.listeners
              && r.world.history == inside.world.history
              && r.world.now == inside.world.now
              && (inside.raised.Some? ==> r.raised == inside.raised && r.reported.None?)
              && (inside.raised.None? ==> (r.reported.Some? <==> r.world.listeners[r.timer].duration.Some?))
              && (inside.raised.None? && r.reported.None? ==> r.raised == Some(NoDuration))
    ensures r.reported.Some? ==> r.raised.None? && r.reported == r.world.listeners[r.timer].duration
    ensures r.raised.None? ==> r.reported.Some?
  {
    var id := w.nextId;
    match Armed(w, kind, NewTimer())
    case Err(e) => TimerRun(Allocate(w, NewTimer()), id, Some(e), None)
    case Ok(w1) =>
      var inside := RunBody(w1, body);
      var w2 := Disarm(w, kind, NewTimer(), inside.world);
      if inside.raised.Some? then TimerRun(w2, id, inside.raised, None)
      else
        match Duration(w2.listeners[id])
        case Err(e) => TimerRun(w2, id, Some(e), None)
        case Ok(d) => TimerRun(w2, id, None, Some(d))
  }

  /** What `install_recorder` leaves behind: the bus, the recorder's id (its
      buffer stays readable) and the exception leaving the scope. */
  datatype RecorderRun<D> = RecorderRun(world: World<D>, recorder: ListenerId, raised: Option<Error>)

  /** `install_recorder(kind)` around `body`. The recorder is removed on every
      path and the body's exception leaves the scope unchanged. */
  function InstallRecorder<D>(w: World<D>, kind: string, body: Body<D>): (r: RecorderRun<D>)
    requires Valid(w)
    ensures Valid(r.world)
    ensures r.recorder == w.nextId && r.recorder !in w.listeners
    ensures r.recorder in r.world.listeners && r.world.listeners[r.recorder].Recording?
    ensures SameListeners(r.world.registry, w.registry)
    ensures forall k :: r.recorder !in Lookup(r.world.registry, k)
    ensures !ValidKind(kind) ==> r.raised == Some(InvalidKind(kind)) && r.world.history == w.history
                                 && r.world.listeners[r.recorder] == NewRecorder()
    ensures ValidKind(kind) ==>
              var inside := RunBody(Armed(w, kind, NewRecorder()).value, body);
              && r.world.listeners == inside.world.listeners
              && r.world.history == inside.world.history
              && r.world.now == inside.world.now
              && r.raised == inside.raised
  {
    var id := w.nextId;
    match Armed(w, kind, NewRecorder())
    case Err(e) => RecorderRun(Allocate(w, NewRecorder()), id, Some(e))
    case Ok(w1) =>
      var inside := RunBody(w1, body);
      RecorderRun(Disarm(w, kind, NewRecorder(), inside.world), id, inside.raised)
  }
}

=== FILE: timer_proofs.dfy ===
/** What a TimingListener measures when the instrumented code marks its kind
    in nested scopes: one duration, from the outermost START to the outermost END. */
module TimerProofs {
  import opened Errors
  import opened Kinds
  import opened Events
  import opened Listeners
  import opened Registrations
  import opened Dispatch
  import opened Emission
  import opened Scopes

  /** Code that only works and nests `mark_event(kind)` scopes, all exiting normally. */
  predicate Nested<D>(kind: string, b: Body<D>)
    decreases b, 0
  {
    match b
    case Exits(exit) => exit.Normal?
    case Then(a, rest) => NestedAction(kind, a) && Nested(kind, rest)
  }

  predicate NestedAction<D>(kind: string, a: Action<D>)
    decreases a, 0
  {
    match a
    case Elapse(_) => true
    case Mark(k, _, body) => k == kind && Nested(kind, body)
    case _ => false
  }

  /** The time such code takes, inner scopes included. */
  function Ticks<D>(b: Body<D>): int
    decreases b, 0
  {
    match b
    case Exits(_) => 0
    case Then(Elapse(t), rest) => t + Ticks(rest)
    case Then(Mark(_, _, body), rest) => Ticks(body) + Ticks(rest)
    case Then(_, rest) => Ticks(rest)
  }

  /** The timer is the only listener for `kind`. */
  ghost predicate SoleTimer<D>(w: World<D>, kind: string, tid: ListenerId)
  {
    && Valid(w) && ValidKind(kind)
    && Lookup(w.registry, kind) == [tid] && tid in w.listeners && w.listeners[tid].Timing?
  }

  /** Inside an open scope (depth at least one) nested code leaves the timer
      exactly as it found it: inner END events never bring the depth to zero. */
  lemma {:induction false} TimerInsideBody<D>(w: World<D>, kind: string, tid: ListenerId, b: Body<D>)
    requires SoleTimer(w, kind, tid) && Nested(kind, b)
    requires w.listeners[tid].ts.Some? && w.listeners[tid].depth >= 1
    ensures var r := RunBody(w, b);
            && r.raised.None? && r.world.listeners[tid] == w.listeners[tid]
            && r.world.now == w.now + Ticks(b)
    decreases b, 0
  {
    match b
    case Exits(_) =>
    case Then(a, rest) =>
      match a
      case Elapse(t) =>
        var w' := w.(now := w.now + t);
        assert RunAction(w, a) == Step(w', None);
        ThenContinues(w, a, rest);
        TimerInsideBody(w', kind, tid, rest);
        assert Ticks(b) == t + Ticks(rest);
      case Mark(_, data, body) =>
        TimerInsideMark(w, kind, tid, data, body);
        var s := RunAction(w, a);
        assert s == MarkEvent(w, kind, data, body);
        assert SoleTimer(s.world, kind, tid) by {
          EvolvesKeepsValid(w, s.world);
        }
        ThenContinues(w, a, rest);
        TimerInsideBody(s.world, kind, tid, rest);
        assert Ticks(b) == Ticks(body) + Ticks(rest);
  }

  /** `start_event(kind)` with the timer as sole listener is the timer's `notify`. */
  lemma TimerStarts<D>(w: World<D>, kind: string, tid: ListenerId, data: D)
    requires SoleTimer(w, kind, tid)
    ensures var r := StartEvent(w, kind, data);
            var n := Notify(w.listeners[tid], Event(kind, Start, data, None), w.now);
            && r.raised.None? && SoleTimer(r.world, kind, tid)
            && r.world.now == w.now && r.world.listeners[tid] == n.state
  {
    var e := Event(kind, Start, data, None);
    BroadcastToSole(w, e, tid);
    var r := StartEvent(w, kind, data);
    assert r == Broadcast(w, e);
    EvolvesKeepsValid(w, r.world);
  }

  /** `end_event(kind)` with the timer as sole listener is the timer's `notify`. */
  lemma TimerEnds<D>(w: World<D>, kind: string, tid: ListenerId, data: D, exc: Option<ExcDetails>)
    requires SoleTimer(w, kind, tid) && TimingWellFormed(w.listeners[tid])
    ensures var r := EndEvent(w, kind, data, exc);
            var n := Notify(w.listeners[tid], Event(kind, End, data, exc), w.now);
            && r.raised.None? && SoleTimer(r.world, kind, tid)
            && r.world.now == w.now && r.world.listeners[tid] == n.state
  {
    var e := Event(kind, End, data, exc);
    BroadcastToSole(w, e, tid);
    var r := EndEvent(w, kind, data, exc);
    assert r == Broadcast(w, e);
    EvolvesKeepsValid(w, r.world);
  }

  /** The END closing the outermost scope sets the duration from the first START. */
  lemma TimerCloses<D>(w: World<D>, kind: string, tid: ListenerId, data: D, exc: Option<ExcDetails>, t0: int)
    requires SoleTimer(w, kind, tid) && w.listeners[tid].ts == Some(t0) && w.listeners[tid].depth == 1
    ensures var r := EndEvent(w, kind, data, exc);
            && r.raised.None? && r.world.now == w.now
            && r.world.listeners[tid] == Timing(Some(t0), 0, Some(w.now - t0))
  {
    var s := w.listeners[tid];
    var measured := Timing(Some(t0), 0, Some(w.now - t0));
    assert Notify(s, Event(kind, End, data, exc), w.now) == Notified(measured, None);
    TimerEnds(w, kind, tid, data, exc);
  }

  lemma {:induction false} TimerInsideMark<D>(w: World<D>, kind: string, tid: ListenerId, data: D, body: Body<D>)
    requires SoleTimer(w, kind, tid) && Nested(kind, body)
    requires w.listeners[tid].ts.Some? && w.listeners[tid].depth >= 1
    ensures var r := MarkEvent(w, kind, data, body);
            && r.raised.None? && r.world.listeners[tid] == w.listeners[tid]
            && r.world.now == w.now + Ticks(body)
    decreases body, 1
  {
    var s := w.listeners[tid];
    TimerStarts(w, kind, tid, data);
    var entered := StartEvent(w, kind, data);
    assert entered.world.listeners[tid] == s.(depth := s.depth + 1);
    TimerInsideBody(entered.world, kind, tid, body);
    var inside := Entered(w, kind, data, body);
    assert inside == RunBody(entered.world, body);
    assert SoleTimer(inside.world, kind, tid) by {
      EvolvesKeepsValid(entered.world, inside.world);
    }
    TimerEnds(inside.world, kind, tid, data, Some(DetailsOf(None)));
    MarkCloses(w, kind, data, body);
  }

  /** Entering an outermost scope: START opens the timer (keeping an earlier
      timestamp if there is one) and the nested code leaves it open. */
  lemma TimerOpensScope<D>(w: World<D>, kind: string, tid: ListenerId, data: D, body: Body<D>)
    requires SoleTimer(w, kind, tid) && Nested(kind, body)
    requires w.listeners[tid].depth == 0
    ensures var t0 := if w.listeners[tid].ts.Some? then w.listeners[tid].ts.value else w.now;
            var inside := Entered(w, kind, data, body);
            && inside.raised.None? && SoleTimer(inside.world, kind, tid)
            && inside.world.now == w.now + Ticks(body)
            && inside.world.listeners[tid] == Timing(Some(t0), 1, w.listeners[tid].duration)
  {
    var s := w.listeners[tid];
    var t0 := if s.ts.Some? then s.ts.value else w.now;
    TimerStarts(w, kind, tid, data);
    var entered := StartEvent(w, kind, data);
    assert entered.world.listeners[tid] == Timing(Some(t0), 1, s.duration);
    TimerInsideBody(entered.world, kind, tid, body);
    var inside := Entered(w, kind, data, body);
    assert inside == RunBody(entered.world, body);
    EvolvesKeepsValid(entered.world, inside.world);
  }

  /** An outermost scope (depth zero) measures the time from the timer's first
      START ever to this END. For a fresh timer that START is this scope's own,
      so the duration is the time the scope took; a reused timer keeps its first
      timestamp, so a later scope measures from the earlier one's START. */
  lemma TimerOuterMark<D>(w: World<D>, kind: string, tid: ListenerId, data: D, body: Body<D>)
    requires SoleTimer(w, kind, tid) && Nested(kind, body)
    requires w.listeners[tid].depth == 0
    ensures var t0 := if w.listeners[tid].ts.Some? then w.listeners[tid].ts.value else w.now;
            var r := MarkEvent(w, kind, data, body);
            && r.raised.None? && r.world.now == w.now + Ticks(body)
            && r.world.listeners[tid] == Timing(Some(t0), 0, Some(w.now + Ticks(body) - t0))
  {
    var t0 := if w.listeners[tid].ts.Some? then w.listeners[tid].ts.value else w.now;
    TimerOpensScope(w, kind, tid, data, body);
    var inside := Entered(w, kind, data, body);
    TimerCloses(inside.world, kind, tid, data, Some(DetailsOf(None)), t0);
    MarkCloses(w, kind, data, body);
  }

  /** A fresh timer around one scope measures exactly the time the scope took. */
  lemma TimerFreshMark<D>(w: World<D>, kind: string, tid: ListenerId, data: D, body: Body<D>)
    requires SoleTimer(w, kind, tid) && Nested(kind, body) && w.listeners[tid] == NewTimer()
    ensures var r := MarkEvent(w, kind, data, body);
            && r.raised.None? && r.world.now == w.now + Ticks(body)
            && r.world.listeners[tid].duration == Some(Ticks(body))
  {
    TimerOuterMark(w, kind, tid, data, body);
  }

  /** `install_timer(kind, callback)` around one `mark_event(kind)` scope reports
      the time the scope's code took, however deeply it nests further scopes of
      the same kind. */
  lemma InstallTimerReportsScope<D>(w: World<D>, kind: string, data: D, inner: Body<D>)
    requires Valid(w) && ValidKind(kind) && Lookup(w.registry, kind) == []
    requires Nested(kind, inner)
    ensures var r := InstallTimer(w, kind, Then(Mark(kind, data, inner), Exits(Normal)));
            r.raised.None? && r.reported == Some(Ticks(inner))
  {
    var w1 := Armed(w, kind, NewTimer()).value;
    var body := Then(Mark(kind, data, inner), Exits(Normal));
    TimerArmed(w, kind);
    TimerFreshMark(w1, kind, w.nextId, data, inner);
    SingleMark(w1, kind, data, inner);
    var inside := RunBody(w1, body);
    assert inside.raised.None? && inside.world.listeners[w.nextId].duration == Some(Ticks(inner));
    var r := InstallTimer(w, kind, body);
    assert r.world.listeners == inside.world.listeners;
    assert r.reported.Some?;
  }

  /** The world `install_timer` runs its code in, when nobody else listens to the kind. */
  lemma TimerArmed<D>(w: World<D>, kind: string)
    requires Valid(w) && ValidKind(kind) && Lookup(w.registry, kind) == []
    ensures var w1 := Armed(w, kind, NewTimer()).value;
            SoleTimer(w1, kind, w.nextId) && w1.listeners[w.nextId] == NewTimer()
  {
  }

  /** Code made of one scope runs as that scope. */
  lemma SingleMark<D>(w: World<D>, kind: string, data: D, body: Body<D>)
    requires Valid(w)
    ensures RunBody(w, Then(Mark(kind, data, body), Exits(Normal))) == MarkEvent(w, kind, data, body)
  {
    assert RunAction(w, Mark(kind, data, body)) == MarkEvent(w, kind, data, body);
  }

  /** Two scopes, the second nested inside the first between `a` and `c` ticks of
      work: the callback gets one duration, a + b + c, not two. */
  lemma NestedScopesMeasureOnce<D>(w: World<D>, kind: string, data: D, a: nat, b: nat, c: nat)
    requires Valid(w) && ValidKind(kind) && Lookup(w.registry, kind) == []
    ensures var inner := Then(Elapse(a), Then(Mark(kind, data, Then(Elapse(b), Exits(Normal))),
                                              Then(Elapse(c), Exits(Normal))));
            InstallTimer(w, kind, Then(Mark(kind, data, inner), Exits(Normal))).reported == Some(a + b + c)
  {
    var inner := Then(Elapse(a), Then(Mark(kind, data, Then(Elapse(b), Exits(Normal))),
                                      Then(Elapse(c), Exits(Normal))));
    var done: Body<D> := Exits(Normal);
    assert Nested(kind, done) && Ticks(done) == 0;
    var workB: Action<D> := Elapse(b);
    var workC: Action<D> := Elapse(c);
    var leaf := Then(workB, done);
    var tail := Then(workC, done);
    assert NestedAction(kind, workB) && NestedAction(kind, workC);
    assert Nested(kind, leaf) == (NestedAction(kind, workB) && Nested(kind, done));
    assert Ticks(leaf) == b + Ticks(done);
    assert Nested(kind, tail) == (NestedAction(kind, workC) && Nested(kind, done));
    assert Ticks(tail) == c + Ticks(done);
    assert NestedAction(kind, Mark(kind, data, leaf));
    assert Nested(kind, Then(Mark(kind, data, leaf), tail)) && Ticks(Then(Mark(kind, data, leaf), tail)) == b + c;
    assert inner == Then(Elapse(a), Then(Mark(kind, data, leaf), tail));
    InstallTimerReportsScope(w, kind, data, inner);
  }

  /** Code that never emits `kind`, not even from scopes of other kinds nested in it. */
  predicate Silent<D>(kind: string, b: Body<D>)
    decreases b, 0
  {
    match b
    case Exits(_) => true
    case Then(a, rest) => SilentAction(kind, a) && Silent(kind, rest)
  }

  predicate SilentAction<D>(kind: string, a: Action<D>)
    decreases a, 0
  {
    match a
    case Elapse(_) => true
    case Begin(k, _) => k != kind
    case Finish(k, _, _) => k != kind
    case Mark(k, _, body) => k != kind && Silent(kind, body)
  }

  /** Listener `tid` is live and installed for no kind other than `kind`. */
  ghost predicate OnlyUnder<D>(w: World<D>, kind: string, tid: ListenerId)
  {
    && Valid(w) && tid in w.listeners
    && forall k :: k != kind ==> tid !in Lookup(w.registry, k)
  }

  /** A broadcast of another kind does not reach the listener. */
  lemma BroadcastPasses<D>(w: World<D>, kind: string, tid: ListenerId, e: Event<D>)
    requires OnlyUnder(w, kind, tid) && e.kind != kind
    ensures OnlyUnder(Broadcast(w, e).world, kind, tid)
    ensures Broadcast(w, e).world.listeners[tid] == w.listeners[tid]
  {
    assert tid !in Lookup(w.registry, e.kind);
  }

  lemma {:induction false} SilentBodyPasses<D>(w: World<D>, kind: string, tid: ListenerId, b: Body<D>)
    requires OnlyUnder(w, kind, tid) && Silent(kind, b)
    ensures OnlyUnder(RunBody(w, b).world, kind, tid)
    ensures RunBody(w, b).world.listeners[tid] == w.listeners[tid]
    decreases b, 0
  {
    match b
    case Exits(_) =>
    case Then(a, rest) =>
      SilentActionPasses(w, kind, tid, a);
      var s := RunAction(w, a);
      if s.raised.Some? {
        ThenStops(w, a, rest);
      } else {
        ThenContinues(w, a, rest);
        SilentBodyPasses(s.world, kind, tid, rest);
      }
  }

  lemma {:induction false} SilentActionPasses<D>(w: World<D>, kind: string, tid: ListenerId, a: Action<D>)
    requires OnlyUnder(w, kind, tid) && SilentAction(kind, a)
    ensures OnlyUnder(RunAction(w, a).world, kind, tid)
    ensures RunAction(w, a).world.listeners[tid] == w.listeners[tid]
    decreases a, 0
  {
    match a
    case Elapse(t) =>
    case Begin(k, data) =>
      if ValidKind(k) {
        BroadcastPasses(w, kind, tid, Event(k, Start, data, None));
      }
    case Finish(k, data, excDetails) =>
      if ValidKind(k) {
        BroadcastPasses(w, kind, tid, Event(k, End, data, excDetails));
      }
    case Mark(k, data, body) =>
      SilentMarkPasses(w, kind, tid, k, data, body);
  }

  lemma {:induction false} SilentMarkPasses<D>(w: World<D>, kind: string, tid: ListenerId, k: string, data: D, body: Body<D>)
    requires OnlyUnder(w, kind, tid) && k != kind && Silent(kind, body)
    ensures OnlyUnder(MarkEvent(w, k, data, body).world, kind, tid)
    ensures MarkEvent(w, k, data, body).world.listeners[tid] == w.listeners[tid]
    decreases body, 2
  {
    if ValidKind(k) {
      var entered := StartEvent(w, k, data);
      BroadcastPasses(w, kind, tid, Event(k, Start, data, None));
      var inside := Entered(w, k, data, body);
      if entered.raised.None? {
        SilentBodyPasses(entered.world, kind, tid, body);
      }
      var exc := Some(DetailsOf(inside.raised));
      BroadcastPasses(inside.world, kind, tid, Event(k, End, data, exc));
      assert MarkEvent(w, k, data, body).world == EndEvent(inside.world, k, data, exc).world;
    }
  }

  /** A scope whose code never emits the timer's kind never sets the duration:
      after a normal exit reading it raises and the callback is not called;
      otherwise the code's own exception leaves. */
  lemma InstallTimerUnmeasured<D>(w: World<D>, kind: string, body: Body<D>)
    requires Valid(w) && ValidKind(kind) && Silent(kind, body)
    ensures var r := InstallTimer(w, kind, body);
            var inside := RunBody(Armed(w, kind, NewTimer()).value, body);
            && r.reported.None?
            && (inside.raised.None? ==> r.raised == Some(NoDuration))
            && (inside.raised.Some? ==> r.raised == inside.raised)
  {
    var w1 := Armed(w, kind, NewTimer()).value;
    forall k | k != kind
      ensures w.nextId !in Lookup(w1.registry, k)
    {
      assert Lookup(w1.registry, k) == Lookup(w.registry, k);
    }
    assert OnlyUnder(w1, kind, w.nextId);
    SilentBodyPasses(w1, kind, w.nextId, body);
  }

  /** A scope whose code raises: the timer is still removed, the code's
      exception leaves unchanged, and the callback is not called. */
  lemma InstallTimerBodyRaises<D>(w: World<D>, kind: string, body: Body<D>)
    requires Valid(w) && ValidKind(kind)
    requires RunBody(Armed(w, kind, NewTimer()).value, body).raised.Some?
    ensures var r := InstallTimer(w, kind, body);
            && r.raised == RunBody(Armed(w, kind, NewTimer()).value, body).raised
            && r.reported.None?
            && SameListeners(r.world.registry, w.registry)
  {
  }
}

=== FILE: traces.dfy ===
/** A reference semantics for instrumented code on a bus whose listeners never
    raise: which events it broadcasts, in order, and which exception leaves it.
    `Trace` and `Outcome` read only the code, never the bus. */
module Traces {
  import opened Errors
  import opened Kinds
  import opened Events
  import opened Listeners
  import opened Registrations
  import opened Dispatch
  import opened Emission

  /** Every listener is a built-in one in a well-formed state, so no broadcast raises. */
  ghost predicate Quiet<D>(w: World<D>)
  {
    forall id | id in w.listeners :: !w.listeners[id].Custom? && TimingWellFormed(w.listeners[id])
  }

  /** The exception a block lets out: the first raising action's, else its own exit. */
  function Outcome<D>(b: Body<D>): Option<Error>
    decreases b, 0
  {
    match b
    case Exits(Normal) => None
    case Exits(Raise(x)) => Some(Raised(x))
    case Then(a, rest) => if ActionOutcome(a).Some? then ActionOutcome(a) else Outcome(rest)
  }

  function ActionOutcome<D>(a: Action<D>): Option<Error>
    decreases a, 0
  {
    match a
    case Elapse(_) => None
    case Begin(kind, _) => if ValidKind(kind) then None else Some(InvalidKind(kind))
    case Finish(kind, _, _) => if ValidKind(kind) then None else Some(InvalidKind(kind))
    case Mark(kind, _, body) => if ValidKind(kind) then Outcome(body) else Some(InvalidKind(kind))
  }

  /** The events a block broadcasts, in order. */
  function Trace<D>(b: Body<D>): seq<Event<D>>
    decreases b, 0
  {
    match b
    case Exits(_) => []
    case Then(a, rest) => ActionTrace(a) + (if ActionOutcome(a).Some? then [] else Trace(rest))
  }

  /** A valid scope broadcasts START, its body's events, then one END describing the body's exit. */
  function ActionTrace<D>(a: Action<D>): seq<Event<D>>
    decreases a, 0
  {
    match a
    case Elapse(_) => []
    case Begin(kind, data) => if ValidKind(kind) then [Event(kind, Start, data, None)] else []
    case Finish(kind, data, exc) => if ValidKind(kind) then [Event(kind, End, data, exc)] else []
    case Mark(kind, data, body) =>
      if ValidKind(kind) then
        [Event(kind, Start, data, None)] + Trace(body) + [Event(kind, End, data, Some(DetailsOf(Outcome(body))))]
      else []
  }

  /** On a quiet bus a broadcast raises nothing and leaves the bus quiet. */
  lemma QuietBroadcast<D>(w: World<D>, e: Event<D>)
    requires Valid(w) && Quiet(w)
    ensures Broadcast(w, e).raised.None? && Quiet(Broadcast(w, e).world)
  {
    var ids := Lookup(w.registry, e.kind);
    assert forall id | id in ids :: id in w.listeners;
    var d := Deliver(w.listeners, ids, e, w.now);
    forall id | id in d.listeners
      ensures !d.listeners[id].Custom? && TimingWellFormed(d.listeners[id])
    {
      assert Variant(d.listeners[id]) == Variant(w.listeners[id]);
    }
  }

  /** Two stretches of broadcasting, one after the other, add their traces in order. */
  lemma HistoryChain<D>(h0: seq<Event<D>>, h1: seq<Event<D>>, h2: seq<Event<D>>, t1: seq<Event<D>>, t2: seq<Event<D>>)
    requires h1 == h0 + t1 && h2 == h1 + t2
    ensures h2 == h0 + (t1 + t2)
  {
  }

  /** Running a block on a quiet bus broadcasts exactly its trace and lets out exactly its outcome. */
  lemma {:induction false} QuietBody<D>(w: World<D>, b: Body<D>)
    requires Valid(w) && Quiet(w)
    ensures var r := RunBody(w, b);
            && Quiet(r.world) && r.raised == Outcome(b) && r.world.history == w.history + Trace(b)
    decreases b, 0
  {
    match b
    case Exits(_) =>
    case Then(a, rest) =>
      QuietAction(w, a);
      var s := RunAction(w, a);
      if s.raised.None? {
        QuietBody(s.world, rest);
        ThenContinues(w, a, rest);
        assert Trace(b) == ActionTrace(a) + Trace(rest);
        HistoryChain(w.history, s.world.history, RunBody(s.world, rest).world.history, ActionTrace(a), Trace(rest));
      } else {
        ThenStops(w, a, rest);
        assert Trace(b) == ActionTrace(a) + [];
      }
  }

  lemma {:induction false} QuietAction<D>(w: World<D>, a: Action<D>)
    requires Valid(w) && Quiet(w)
    ensures var r := RunAction(w, a);
            && Quiet(r.world) && r.raised == ActionOutcome(a) && r.world.history == w.history + ActionTrace(a)
    decreases a, 0
  {
    match a
    case Elapse(_) =>
    case Begin(kind, data) =>
      if ValidKind(kind) {
        QuietBroadcast(w, Event(kind, Start, data, None));
      }
    case Finish(kind, data, exc) =>
      if ValidKind(kind) {
        QuietBroadcast(w, Event(kind, End, data, exc));
      }
    case Mark(kind, data, body) =>
      QuietMark(w, kind, data, body);
  }

  /** `mark_event` on a quiet bus: START, the body's trace, one END carrying the
      body's exit triple; the body's exception comes out unchanged. */
  lemma {:induction false} QuietMark<D>(w: World<D>, kind: string, data: D, body: Body<D>)
    requires Valid(w) && Quiet(w)
    ensures var r := MarkEvent(w, kind, data, body);
            && Quiet(r.world)
            && r.raised == ActionOutcome(Mark(kind, data, body))
            && r.world.history == w.history + ActionTrace(Mark(kind, data, body))
    decreases body, 1
  {
    if ValidKind(kind) {
      var startEvt := Event(kind, Start, data, None);
      QuietBroadcast(w, startEvt);
      var entered := StartEvent(w, kind, data);
      assert entered == Broadcast(w, startEvt);
      QuietBody(entered.world, body);
      var inside := Entered(w, kind, data, body);
      assert inside == RunBody(entered.world, body);
      var endEvt := Event(kind, End, data, Some(DetailsOf(inside.raised)));
      QuietBroadcast(inside.world, endEvt);
      var exited := EndEvent(inside.world, kind, data, Some(DetailsOf(inside.raised)));
      assert exited == Broadcast(inside.world, endEvt);
      var r := MarkEvent(w, kind, data, body);
      assert r.world == exited.world && r.raised == inside.raised;
      assert r.world.history == w.history + ([startEvt] + Trace(body) + [endEvt]);
    }
  }

  /** Every listener installed for `kind` is a well-formed built-in one, so a
      broadcast of that kind never raises; listeners of other kinds may be anything. */
  ghost predicate QuietFor<D>(w: World<D>, kind: string)
  {
    && Valid(w)
    && forall id | id in Lookup(w.registry, kind) ::
         id in w.listeners && !w.listeners[id].Custom? && TimingWellFormed(w.listeners[id])
  }

  /** Code that emits events of `kind` only, nested scopes included. */
  predicate EmitsOnly<D>(kind: string, b: Body<D>)
    decreases b, 0
  {
    match b
    case Exits(_) => true
    case Then(a, rest) => EmitsOnlyAction(kind, a) && EmitsOnly(kind, rest)
  }

  predicate EmitsOnlyAction<D>(kind: string, a: Action<D>)
    decreases a, 0
  {
    match a
    case Elapse(_) => true
    case Begin(k, _) => k == kind
    case Finish(k, _, _) => k == kind
    case Mark(k, _, body) => k == kind && EmitsOnly(kind, body)
  }

  /** A broadcast of a kind whose listeners are all quiet raises nothing and keeps them quiet. */
  lemma QuietForBroadcast<D>(w: World<D>, kind: string, e: Event<D>)
    requires QuietFor(w, kind) && e.kind == kind
    ensures Broadcast(w, e).raised.None? && QuietFor(Broadcast(w, e).world, kind)
  {
    var ids := Lookup(w.registry, kind);
    var d := Deliver(w.listeners, ids, e, w.now);
    forall id | id in ids
      ensures !d.listeners[id].Custom? && TimingWellFormed(d.listeners[id])
    {
      assert Variant(d.listeners[id]) == Variant(w.listeners[id]);
    }
  }

  /** Code that emits only `kind`, run on a bus whose `kind` listeners are quiet,
      broadcasts exactly its trace and lets out exactly its outcome, whatever
      listens to other kinds. */
  lemma {:induction false} QuietForBody<D>(w: World<D>, kind: string, b: Body<D>)
    requires QuietFor(w, kind) && EmitsOnly(kind, b)
    ensures var r := RunBody(w, b);
            && QuietFor(r.world, kind) && r.raised == Outcome(b) && r.world.history == w.history + Trace(b)
    decreases b, 0
  {
    match b
    case Exits(_) =>
    case Then(a, rest) =>
      QuietForAction(w, kind, a);
      var s := RunAction(w, a);
      if s.raised.None? {
        QuietForBody(s.world, kind, rest);
        ThenContinues(w, a, rest);
        assert Trace(b) == ActionTrace(a) + Trace(rest);
        HistoryChain(w.history, s.world.history, RunBody(s.world, rest).world.history, ActionTrace(a), Trace(rest));
      } else {
        ThenStops(w, a, rest);
        assert Trace(b) == ActionTrace(a) + [];
      }
  }

  lemma {:induction false} QuietForAction<D>(w: World<D>, kind: string, a: Action<D>)
    requires QuietFor(w, kind) && EmitsOnlyAction(kind, a)
    ensures var r := RunAction(w, a);
            && QuietFor(r.world, kind) && r.raised == ActionOutcome(a) && r.world.history == w.history + ActionTrace(a)
    decreases a, 0
  {
    match a
    case Elapse(_) =>
    case Begin(k, data) =>
      if ValidKind(k) {
        QuietForBroadcast(w, kind, Event(k, Start, data, None));
      }
    case Finish(k, data, exc) =>
      if ValidKind(k) {
        QuietForBroadcast(w, kind, Event(k, End, data, exc));
      }
    case Mark(k, data, body) =>
      QuietForMark(w, kind, data, body);
  }

  lemma {:induction false} QuietForMark<D>(w: World<D>, kind: string, data: D, body: Body<D>)
    requires QuietFor(w, kind) && EmitsOnly(kind, body)
    ensures var r := MarkEvent(w, kind, data, body);
            && QuietFor(r.world, kind)
            && r.raised == ActionOutcome(Mark(kind, data, body))
            && r.world.history == w.history + ActionTrace(Mark(kind, data, body))
    decreases body, 1
  {
    if ValidKind(kind) {
      var startEvt := Event(kind, Start, data, None);
      QuietForBroadcast(w, kind, startEvt);
      var entered := StartEvent(w, kind, data);
      QuietForBody(entered.world, kind, body);
      var inside := Entered(w, kind, data, body);
      assert inside == RunBody(entered.world, body);
      var endEvt := Event(kind, End, data, Some(DetailsOf(inside.raised)));
      QuietForBroadcast(inside.world, kind, endEvt);
      var exited := EndEvent(inside.world, kind, data, Some(DetailsOf(inside.raised)));
      var r := MarkEvent(w, kind, data, body);
      assert r.world == exited.world && r.raised == inside.raised;
      assert r.world.history == w.history + ([startEvt] + Trace(body) + [endEvt]);
    }
  }
}
